=== FILE: README.md ===
# redis-fts in Dafny

A model of the core of redis-fts, a small full-text search engine that keeps its index in
Redis. The model has two parts.

- **The tokenizer** (`tokenize`). It turns a text into a map from term to weight. The steps are:
  - canonical decomposition, then deletion of combining marks;
  - punctuation becomes spaces, and the text splits on runs of whitespace;
  - lower-casing, then dropping empty tokens and stopwords, then stemming;
  - every surviving occurrence is weighted 1/(n+1), where n is the number of surviving words.
- **The engine** (`FTS`).
  - `add(id, text)` sends one pipeline of ZADD/ZADD/SET per term.
  - `remove(id)` reads the stored text back and sends ZREM/ZREM per term, then a DEL.
  - `search(query)` sends one ZINTER ... WITHSCORES over the query's word sets and one GET per
    match, then sorts by descending score.
  - Index `name` uses three key families:
    - `fts:{name}:word:{term}`, a sorted set of the ids whose text has the term;
    - `fts:{name}:docset:{id}`, a sorted set of the document's terms;
    - `fts:{name}:doc:{id}`, the document's text.

Redis is modelled as a pure state machine (`RedisStore`):
- The keyspace is one map from key to value. A value is a sorted set or a string.
- Only the commands the engine sends are modelled.
- Type errors are kept:
  - ZADD or ZREM on a string is an error reply inside a pipeline, and the store is unchanged;
  - GET on a sorted set rejects the call;
  - so does ZINTER over a string key or over no key at all.
- A sorted set that ZREM empties is deleted, as Redis does.

Scores and weights are exact reals. The host's Unicode services (NFD and lower-casing) are
parameters (`Text.TextLib`). `Text.Latin1` is one concrete instance, and it is proved to meet
the assumptions (`Sane`) that some lemmas make about them.

Modules, one per file:
- `Wrappers`: Option and Result.
- `Lex`: code-point order on strings, and the enumeration of a finite set in that order.
- `Text`: character classes and host text services.
- `Tokenizer` and `TokenizerFacts`: the tokenizer and its properties.
- `JsTally`: the weighting as JavaScript evaluates it (see Findings).
- `RedisStore`: the Redis commands the engine uses.
- `FtsKeys`: the key layout.
- `Ranking`: the final sort.
- `Fts`: add, remove and search.
- `FtsEffects` and `FtsFacts`: what add and remove do to the keyspace.
- `SearchFacts`: what search returns.

The key results:
- `FtsFacts.RemoveUndoesAdd`: removing a freshly added document restores the store exactly.
- `SearchFacts.SearchFindsAddedOnly`: a freshly added document is a hit exactly when every
  query term occurs in its text.
- `SearchFacts.SearchHits`: the hits are exactly the ids in every query word set. Each carries
  its summed score and its text. Hits come by descending score, with ties by increasing id.

Two behaviours of the code that a caller may not expect, both modelled as written:
- An empty query (one with no terms) sends `ZINTER 0 WITHSCORES`. Redis answers that with an
  error reply, so the search rejects instead of returning an empty list.
- Results with equal scores keep ZINTER's reply order, because the final sort is stable. The
  model takes ZINTER's reply in increasing id order, which is the order Redis uses among equal
  sums once the sort has grouped by score. So ties come out by increasing id.

## Model

| member | source | states |
|---|---|---|
| Text.IsCombiningMark | src/tokenize.ts:15 | the class `[\u0300-\u036f]`: the code points U+0300 to U+036F of the Combining Diacritical Marks block |
| Text.IsPunctuation | src/tokenize.ts:17 | the 25 characters of the class at line 17: `. , ; : " ' \ / ! @ # $ % ? * ( ) - = + [ ] { } _` |
| Text.IsSpace | src/tokenize.ts:18 | the `\s` class: the ECMAScript WhiteSpace and LineTerminator code points |
| Text.Latin1IsSane | src/tokenize.ts:13-19 | the Latin-1 instance of the host services meets the assumptions the tokenizer lemmas make: lower-casing is idempotent and keeps word characters, and separators decompose to separators |
| Tokenizer.Normalize | src/tokenize.ts:13 | NFD of a single code point is the runtime's decomposition of it, and a text already decomposed comes back unchanged; with NormalizeAppend this fixes NFD of every text as the decompositions of its code points, in order (NormalizeKeepsSeparators adds a property) |
| Tokenizer.NormalizeAppend | src/tokenize.ts:13 | NFD of a concatenation is the concatenation of the NFDs, so it acts code point by code point |
| Tokenizer.NormalizeKeepsSeparators | src/tokenize.ts:13 | NFD of a text made only of separators is made only of separators |
| Tokenizer.StripMarks | src/tokenize.ts:14-15 | no combining mark (U+0300 to U+036F) is left, no character is invented, a text without marks is unchanged, and a lone mark becomes the empty text |
| Tokenizer.StripMarksAppend | src/tokenize.ts:15 | mark deletion of a concatenation is the concatenation of the deletions; with the one-character cases of StripMarks this pins it down as the filter that keeps exactly the non-marks, in order |
| Tokenizer.ReplacePunctuation | src/tokenize.ts:16-17 | same length, each listed punctuation character becomes the space U+0020, every other character is kept |
| Tokenizer.Split | src/tokenize.ts:18 | the pieces contain no whitespace and together hold exactly the non-space characters, in order |
| Tokenizer.SplitShape | src/tokenize.ts:18 | the text is its pieces joined by non-empty whitespace runs; the pieces are whitespace-free and only the first and last may be empty (the first is non-empty when the text starts with a non-space) |
| Tokenizer.SplitUnique | src/tokenize.ts:18 | any list of pieces that joins back to the text that way is the split itself |
| Tokenizer.SplitCharacterized | src/tokenize.ts:18 | a list of strings is the split of a text exactly when it cuts the text at its maximal whitespace runs, as `split(/\s+/g)` does |
| Tokenizer.Lower | src/tokenize.ts:19 | `toLowerCase` of a token: same length, and each code point is replaced by the runtime's lower-case mapping of it |
| Tokenizer.LowerAll | src/tokenize.ts:19 | same number of tokens, and each token is `Lower` of the token at its position |
| Tokenizer.LowerIdempotent | src/tokenize.ts:19 | under a sane runtime, lower-casing twice is lower-casing once |
| Tokenizer.LowerAllIdempotent | src/tokenize.ts:19 | the same for a whole token list |
| Tokenizer.Tokens | src/tokenize.ts:12-19 | the pipeline up to lower-casing; TokenizerFacts.TokensAreClean states what its tokens are |
| Tokenizer.DropStopwords | src/tokenize.ts:20 | survivors are non-empty non-stopwords, and each such token keeps exactly its number of occurrences |
| Tokenizer.Survivors | src/tokenize.ts:12-20 | the tokens that pass the filter; DropStopwords states they are exactly the non-empty non-stopwords, with their counts |
| Tokenizer.Words | src/tokenize.ts:12-21 | the survivors, stemmed when a stemmer is given; TermsAreStemsOfSurvivors and UnstemmedTermsAreSurvivors relate them to the terms |
| Tokenizer.Stem | src/tokenize.ts:21 | `stemmer ? stemmer(word) : word`: without a stemmer the words are unchanged; with one, each word is replaced by its stem, position by position |
| Tokenizer.StemAll | src/tokenize.ts:21 | the stemmer applied to every word, position by position |
| Tokenizer.Tally | src/tokenize.ts:24-27 | the intended reduce over a plain map; TallyKeys, TallyValue and TallySum state its effect |
| Tokenizer.TallyKeys | src/tokenize.ts:24-27 | the reduce has an entry exactly for each earlier entry and each word |
| Tokenizer.TallyValue | src/tokenize.ts:24-27 | an entry grows by the fraction once per occurrence of its word |
| Tokenizer.TallySum | src/tokenize.ts:24-27 | the weights grow in total by the fraction times the number of words |
| Tokenizer.Weigh | src/tokenize.ts:23-27 | a term is weighted exactly when it occurs; its weight is its count over n+1, positive; no words gives the empty map |
| Tokenizer.Tokenize | src/tokenize.ts:7-28 | the terms are exactly the stemmed surviving words, each weighted by its count over (number of survivors + 1); the map is empty exactly when no token survives |
| TokenizerFacts.WeightsSum | src/tokenize.ts:23-27 | all weights of a text add up to n/(n+1) < 1 |
| TokenizerFacts.SingleWordWeighsHalf | src/tokenize.ts:23-27 | a text with one surviving word maps its term to 1/2 |
| TokenizerFacts.OnlyStopwordsGiveNothing | src/tokenize.ts:20 | a text whose tokens are all empty or stopwords has no terms |
| TokenizerFacts.OnlySeparatorsGiveNothing | src/tokenize.ts:12-20 | a text of only whitespace and punctuation (including the empty text) has no terms |
| TokenizerFacts.TokensAreClean | src/tokenize.ts:12-19 | every token is free of whitespace, punctuation and combining marks, and is already lower case |
| TokenizerFacts.UnstemmedTermsAreClean | src/tokenize.ts:12-21 | without a stemmer, every term is a non-empty, non-stopword clean token |
| TokenizerFacts.UnstemmedTermsAreSurvivors | src/tokenize.ts:20-21 | without a stemmer, the terms are exactly the surviving words |
| TokenizerFacts.TermsAreStemsOfSurvivors | src/tokenize.ts:21 | with a stemmer, the terms are exactly the stems of the surviving words |
| TokenizerFacts.StemmedWeight | src/tokenize.ts:21-27 | a stem's weight counts every surviving word that stems to it |
| TokenizerFacts.StemHitsPair | src/tokenize.ts:21-25 | two different words with the same stem pool their occurrences in that stem |
| JsTally.Read | src/tokenize.ts:25 | `acc[word]`: an own property when there is one, else the inherited property of `Object.prototype` when the name is one of its property names, else `undefined` |
| JsTally.Truthy | src/tokenize.ts:25 | the `?` test: `undefined` and the number 0 are falsy, other numbers, functions and strings truthy |
| JsTally.Plus | src/tokenize.ts:25 | `acc[word] + fraction`: a numeric sum for a number, a string (not a number) for anything else |
| JsTally.TallyAsWritten | src/tokenize.ts:24-27 | the reduce with JavaScript's property lookup on `{}`, inherited names included; AgreesOffPrototype and ConstructorNotWeighed compare it with Tally |
| JsTally.WeighAsWritten | src/tokenize.ts:23-27 | the weighting as written, fraction 1/(n+1) from `{}`; WeighAgrees and ConstructorNotWeighed compare it with Weigh |
| JsTally.AgreesOffPrototype | src/tokenize.ts:24-27 | the reduce with JavaScript property lookups equals the intended tally on words that avoid the names of Object.prototype |
| JsTally.WeighAgrees | src/tokenize.ts:23-27 | the weighting as written equals the intended weighting on words that avoid those names |
| JsTally.ConstructorNotWeighed | src/tokenize.ts:25 | the single word "constructor" gets a non-number as written, where 1/2 is intended |
| Lex.Enumerate | src/FTS.ts:59 | the enumeration of a key set lists each key once, in increasing code-point order |
| FtsFacts.EnumerateOrder | src/FTS.ts:83 | the enumeration of the token map has no repeats and covers all of its keys |
| RedisStore.ZSetAt | src/FTS.ts:61 | the sorted set a command sees: empty for an absent key, a type error exactly for a string |
| RedisStore.Apply | src/FTS.ts:59-66 | ZADD sets one member's score and leaves the other keys; ZREM drops one member and deletes a set it empties; SET and DEL write or delete one key; an error reply changes nothing |
| RedisStore.Exec | src/FTS.ts:68 | `pipeline.flush()`: the queued commands applied in order, an error reply leaving the store unchanged and the later commands still applied; the same flush ends remove at line 87; ExecAppend and ExecWellFormed state its properties |
| RedisStore.ExecAppend | src/FTS.ts:59-68 | running two command lists one after the other is running their concatenation, so a pipeline can be reasoned about term by term |
| RedisStore.ApplyWellFormed | src/FTS.ts:84-85 | no command leaves an empty sorted set behind |
| RedisStore.ExecWellFormed | src/FTS.ts:68 | a whole pipeline leaves no empty sorted set behind |
| RedisStore.Get | src/FTS.ts:112 | GET gives the string, nothing for an absent key, and a type error exactly for a sorted set |
| RedisStore.Intersect | src/FTS.ts:95-100 | two score maps meet in their common members, with the scores added |
| RedisStore.InterFrom | src/FTS.ts:95-100 | over a non-empty key list: fails exactly when a key holds a string; the members are exactly those in every set, each scored with the sum |
| RedisStore.ZInter | src/FTS.ts:95-100 | ZINTER with no key is an error reply; otherwise as InterFrom |
| FtsKeys.WordKey | src/FTS.ts:42-44 | `fts:{name}:word:{term}`; KeysDistinct makes it injective in the term and disjoint from the other families |
| FtsKeys.DocSetKey | src/FTS.ts:46-48 | `fts:{name}:docset:{id}`; KeysDistinct makes it injective in the id |
| FtsKeys.DocKey | src/FTS.ts:50-52 | `fts:{name}:doc:{id}`; KeysDistinct makes it injective in the id |
| FtsKeys.Parse | src/FTS.ts:42-52 | reads a key of the index back into its family and term or id; ParseFormat and FormatParse make it the exact inverse of the three templates |
| FtsKeys.ParseFormat | src/FTS.ts:42-52 | every word, doc-set and document key reads back as what it was made from |
| FtsKeys.FormatParse | src/FTS.ts:42-52 | a key that reads back as something is exactly that thing's key |
| FtsKeys.FormatInjective | src/FTS.ts:42-52 | within one index, two keys are equal exactly when they stand for the same family and term or id |
| FtsKeys.KeysDistinct | src/FTS.ts:42-52 | word keys are injective in the term, doc-set and document keys in the id, and the three families never meet |
| Ranking.SortByScore | src/FTS.ts:123 | the sort is a permutation and orders by non-increasing score |
| Ranking.SortSameHits | src/FTS.ts:123 | the sort keeps exactly the same results |
| Ranking.SortTies | src/FTS.ts:123 | the sort is stable: among equal scores, the input's increasing ids stay increasing |
| Ranking.SortRanks | src/FTS.ts:123 | from input in increasing id order, the result is by descending score, then by increasing id |
| Fts.Terms | src/FTS.ts:55 | the engine's term map of a text: the tokenizer with the engine's stopwords and stemmer |
| Fts.TermCommands | src/FTS.ts:61-65 | ZADD of the id to the word set, ZADD of the term to the doc set, SET of the text; TermCommandsEffect states their effect |
| Fts.AddCommands | src/FTS.ts:59-66 | add queues three commands per term |
| Fts.AddCommandsAt | src/FTS.ts:59-66 | the i-th term of the order owns commands 3i to 3i+2: its word-set ZADD at its weight, its doc-set ZADD, and the SET of the text |
| Fts.Add | src/FTS.ts:54-70 | add keeps the store free of empty sorted sets |
| Fts.TermCommandsEffect | src/FTS.ts:61-65 | one term's commands put the id in the term's word set at the weight and the term in the doc set at the weight, and store the text |
| Fts.AddPipeline | src/FTS.ts:59-66 | for any duplicate-free order of the terms, the pipeline has the key-by-key effect of add |
| Fts.RemoveCommands | src/FTS.ts:83-86 | remove queues two ZREMs per term: command 2i takes the id out of the i-th term's word set, command 2i+1 takes that term out of the doc set |
| Fts.Remove | src/FTS.ts:72-91 | remove fails exactly when the document key holds a sorted set, and keeps the store free of empty sorted sets |
| Fts.RemovePipeline | src/FTS.ts:83-86 | for any duplicate-free order of the terms, the ZREMs drop the id from each term's word set and the terms from the doc set |
| Fts.RemoveRun | src/FTS.ts:82-87 | the whole remove pipeline, with the final DEL of the document |
| Fts.QueryTerms | src/FTS.ts:94 | the terms of the query, tokenized like a document, in enumeration order |
| Fts.QueryKeys | src/FTS.ts:94-98 | the word key of each query term; KeysOf and QueryKeysNonEmpty state it |
| Fts.KeysOf | src/FTS.ts:98 | ZINTER is given exactly the word key of each query term, in order |
| Fts.Content | src/FTS.ts:112-115 | a hit's content is the stored string, or "" when there is none |
| Fts.Hydrate | src/FTS.ts:106-119 | one GET per match: succeeds exactly when every GET does, fails only with a type error, and builds the hit for each id with its text and its ZINTER score |
| Fts.SearchKeys | src/FTS.ts:95-123 | with no key the search is an error reply; a successful one is by non-increasing score |
| Fts.Search | src/FTS.ts:93-124 | a query without terms is an error reply; a successful search is by non-increasing score |
| FtsEffects.PostingsAdded | src/FTS.ts:61 | after add, each term's word set maps the id to the term's weight, replacing an earlier weight |
| FtsEffects.DocSetAdded | src/FTS.ts:63 | after add, the doc set holds its earlier terms plus the new ones at their weights |
| FtsEffects.DocumentAdded | src/FTS.ts:65 | after add, the text is stored when it has a term, and nothing happens when it has none |
| FtsEffects.UntouchedByAdd | src/FTS.ts:59-66 | add touches no key but the document, the doc set and the new terms' word sets |
| FtsEffects.OthersAfterAdd | src/FTS.ts:59-66 | add leaves every other id's postings, doc set and text as they were |
| FtsEffects.TypedAfterAdd | src/FTS.ts:59-66 | add keeps sorted sets under word and doc-set keys and strings under document keys |
| FtsEffects.OthersAfterRemove | src/FTS.ts:82-87 | remove leaves every other id's postings, doc set and text as they were |
| FtsEffects.TypedAfterRemove | src/FTS.ts:82-87 | remove keeps sorted sets under word and doc-set keys and strings under document keys |
| FtsEffects.RoundTripAt | src/FTS.ts:82-87 | after adding a fresh id, the ZREMs for its terms restore every key except the document |
| FtsFacts.AddEffect | src/FTS.ts:54-70 | add has exactly its key-by-key effect, for the term map of the text |
| FtsFacts.AddNothing | src/FTS.ts:59-66 | a text without terms adds nothing, not even the document |
| FtsFacts.AddPostings | src/FTS.ts:61 | each term's word set gains the id at the term's weight |
| FtsFacts.AddDocSet | src/FTS.ts:63 | the doc set gains every term of the text at its weight |
| FtsFacts.AddDocument | src/FTS.ts:65 | the text is stored exactly when it has a term |
| FtsFacts.AddElsewhere | src/FTS.ts:59-66 | every other key is left as it was |
| FtsFacts.AddLeavesStale | src/FTS.ts:59-66 | re-adding an id leaves its postings under terms the new text lacks |
| FtsFacts.AddOtherIds | src/FTS.ts:59-66 | other documents keep their postings, doc sets and texts |
| FtsFacts.AddKeepsTyped | src/FTS.ts:54-70 | add keeps every key of the index holding the right type |
| FtsFacts.RemoveNoop | src/FTS.ts:75-80 | with no stored text, or the empty one, remove changes nothing |
| FtsFacts.RemoveEffect | src/FTS.ts:82-87 | with a stored text, remove drops the id from each of its terms' word sets, drops the terms from the doc set, deletes the document, and leaves all else |
| FtsFacts.RemoveOtherIds | src/FTS.ts:72-91 | other documents keep their postings, doc sets and texts |
| FtsFacts.RemoveKeepsTyped | src/FTS.ts:72-91 | remove keeps every key of the index holding the right type |
| FtsFacts.EmptyTextNoTerms | src/tokenize.ts:12-20 | the empty text has no terms, whatever the runtime's text services |
| FtsFacts.RemoveUndoesAdd | src/FTS.ts:54-91 | removing a freshly added document restores the store exactly |
| SearchFacts.InAllTerms | src/FTS.ts:95-100 | an id is in every set ZINTER is given exactly when it is in every query term's word set |
| SearchFacts.OutcomeOf | src/FTS.ts:95-119 | a search over some keys succeeds exactly when none holds a string and no match's document key holds a sorted set |
| SearchFacts.HydratedIds | src/FTS.ts:106-119 | the hits before the sort are one per ZINTER member, in reply order |
| SearchFacts.HydratedValues | src/FTS.ts:111-118 | each hit before the sort carries its ZINTER score and its stored text |
| SearchFacts.SortedIds | src/FTS.ts:123 | the sorted hits are still one per ZINTER member |
| SearchFacts.SortedValues | src/FTS.ts:123 | each sorted hit still carries its score and text |
| SearchFacts.SortedOrder | src/FTS.ts:123 | the sorted hits are by descending score, then increasing id |
| SearchFacts.HitsOf | src/FTS.ts:93-124 | the hits are exactly the ids in every set, with summed score and text, by descending score, then increasing id |
| SearchFacts.SucceedsOn | src/FTS.ts:95-119 | on a well-typed index, a search over a non-empty term list succeeds |
| SearchFacts.WeightSum | src/FTS.ts:95-100 | the sum of the query terms' weights is positive for a non-empty query |
| SearchFacts.ScoreOfWeights | src/FTS.ts:95-100 | an id holding each term at its weight is in every set, and ZINTER scores it with the sum of those weights |
| SearchFacts.FoundAt | src/FTS.ts:93-124 | a stored document in every query word set is a hit, with its text and summed weights |
| SearchFacts.QueryKeysNonEmpty | src/FTS.ts:94-98 | a query with a term names at least one word set |
| SearchFacts.SearchOutcome | src/FTS.ts:93-124 | a search with terms succeeds exactly when no query word key holds a string and no match's document key holds a sorted set |
| SearchFacts.SearchSucceeds | src/FTS.ts:93-124 | on a well-typed index, a query with a term cannot fail |
| SearchFacts.SearchHits | src/FTS.ts:93-124 | the hits are exactly the ids in every query word set, each with its summed weight and stored text, by descending score, then increasing id |
| SearchFacts.SearchFindsAdded | src/FTS.ts:54-124 | after add, a query whose terms all occur in the text finds the document, with its text and the positive sum of the query terms' weights |
| SearchFacts.PostedExactly | src/FTS.ts:59-66 | for a fresh id, add puts it in a term's word set exactly when the term occurs in the text |
| SearchFacts.SearchFindsAddedOnly | src/FTS.ts:54-124 | for a fresh id, add makes the document a hit exactly when every query term occurs in the text |
| SearchFacts.FreshNotFound | src/FTS.ts:93-124 | a document never added is no hit |
| SearchFacts.RemovedNotFound | src/FTS.ts:54-124 | once a freshly added document is removed again, no search finds it |

## Left out

- Host text services: NFD (`normalize`), `toLowerCase` and the exact Unicode `\s` class come from
  the JavaScript runtime. NFD and lower-casing are parameters (`Text.TextLib`). `\s` is written out
  as the ECMAScript WhiteSpace and LineTerminator code points.
- Strings are sequences of Unicode code points. JavaScript strings are UTF-16 and may hold lone
  surrogates, which the model cannot represent. The Redis client also sends every key, id and
  text as UTF-8, which replaces a lone surrogate by U+FFFD, so an id holding one could come back
  from a search different from the id that was added. Neither is modelled. On well-formed text
  the two views agree: every character class the tokenizer uses lies in the Basic Multilingual
  Plane and the length test only asks whether a token is empty.
- Floating point: weights and scores are exact reals. `1 / (n + 1)`, the repeated additions and
  `Number(score)` on ZINTER's textual reply round in the source; the model does not.
- Connections, pipelines as network objects, `flush`, `close`, and the separate client per call
  are I/O. A pipeline is modelled as its command list applied in order.
- Concurrency: calls are modelled one at a time. Interleavings between the separate connections
  are not modelled, and neither is the lack of atomicity between remove's GET and its pipeline.
- `FTS.get` and the defaults it picks (English stopwords, Porter stemmer) are left out. The
  stopword catalog and the Snowball stemmers are not part of this model. An engine is given its
  name, stopword list and stemmer as parameters (`Fts.Engine`).
- Enumeration order: `Object.entries` and `Object.keys` order is modelled as increasing code-point
  order (`Lex.Enumerate`). The add and remove lemmas hold for every duplicate-free order.
- ZINTER reply order: modelled as increasing id. Redis orders by score and then member, and the
  later sort groups by score, so the final order is the same.
- The `typeof id !== "string"` test in search is never taken against the modelled reply, which
  holds only strings, so it is not modelled.
- Keys of different index names can collide (for example an index named `a:word:b`). Only keys
  within one index are proved distinct.
- The inherited-property weighting of the word "constructor" (see Findings) is modelled in
  `JsTally`. The rest of the model uses the intended weighting, so a ZADD with a non-numeric
  score is not modelled.
- Host text services again: `TextLib` gives NFD and lower-casing one code point at a time. Two
  runtime behaviours need context and are not expressible that way: the Final_Sigma rule of
  `toLowerCase` (JavaScript lower-cases "ΟΔΟΣ" to "οδος", ending in final sigma; a per-code-point
  service gives "οδοσ"), and the canonical reordering of combining marks that NFD performs
  (it matters for marks outside U+0300 to U+036F, such as Hebrew points, which survive mark
  deletion in an order the model does not reproduce).
- FtsFacts.RemoveUndoesAdd: stated for a fresh id on an index whose keys hold their proper types
  and which has no empty sorted set. Re-adding an existing id leaves stale postings
  (`FtsFacts.AddLeavesStale`), so no round trip holds there.
- SearchFacts.SearchFindsAddedOnly: stated for a fresh id. An id added before keeps stale postings.

## Findings

| source | as written | input that shows it | evidently intended | confidence | as-written member | corrected member |
|---|---|---|---|---|---|---|
| src/tokenize.ts:24-27 | `acc[word] ? acc[word] + fraction : fraction` on `acc = {}` also reads properties inherited from `Object.prototype` | the text "constructor" with no stemmer (or one that keeps the word): its one word is lower case and survives; `acc["constructor"]` is the `Object` function, so the weight becomes a string instead of 0.5 | each occurrence adds 1/(n+1) to a count that starts from nothing | high (not executed) | JsTally.ConstructorNotWeighed | Tokenizer.Weigh |

=== FILE: fts.dfy ===
/** The search engine of src/FTS.ts: `add`, `remove` and `search` as
    transitions of the Redis keyspace.

    `add` and `remove` send pipelines of ZADD/ZREM/SET/DEL; their effect is
    characterised key by key (`AddedAt`, `RemovedAt`) for any order of the
    terms, so the order in which the host enumerates a token map does not
    matter. `search` is one ZINTER over the query's word sets, one GET per
    matching id, and a sort by descending score. */
module Fts {
  import opened Wrappers
  import opened Text
  import opened Tokenizer
  import opened RedisStore
  import opened FtsKeys
  import Lex
  import opened Ranking

  /** One index: its name, the host's text services, the stopword list and
      the stemmer it was opened with. */
  datatype Engine = Engine(name: string, lib: TextLib, stopwords: seq<string>, stem: string -> string)

  /** The term weights the engine's tokenizer gives `text`. */
  function Terms(e: Engine, text: string): map<string, real> {
    Tokenize(e.lib, text, e.stopwords, Some(e.stem))
  }

  /** Every key of the index holds the type the engine writes there: sorted
      sets under word and doc-set keys, strings under document keys. */
  ghost predicate Typed(name: string, db: Db) {
    && (forall t :: WordKey(name, t) in db ==> db[WordKey(name, t)].ZSet?)
    && (forall id :: DocSetKey(name, id) in db ==> db[DocSetKey(name, id)].ZSet?)
    && (forall id :: DocKey(name, id) in db ==> db[DocKey(name, id)].Str?)
  }

  /** `id` has never been added: no document, no doc set, no posting. */
  ghost predicate Fresh(name: string, db: Db, id: string) {
    && DocKey(name, id) !in db
    && DocSetKey(name, id) !in db
    && forall t :: id !in Members(db, WordKey(name, t))
  }

  predicate Distinct(order: seq<string>) {
    forall i, j :: 0 <= i < j < |order| ==> order[i] != order[j]
  }

  function Elems(order: seq<string>): set<string> {
    set t | t in order
  }

  /** The part of `m` on the keys in `s`. */
  function Restrict(m: map<string, real>, s: set<string>): (r: map<string, real>)
    ensures forall t :: t in r <==> t in m && t in s
  {
    map t | t in m.Keys * s :: m[t]
  }

  /** Adding one more key of `tokens` to a restriction merged into `m`. */
  lemma {:induction false} RestrictGrows(m: map<string, real>, tokens: map<string, real>, s: set<string>, t: string)
    requires t in tokens
    ensures (m + Restrict(tokens, s))[t := tokens[t]] == m + Restrict(tokens, s + {t})
  {
    var a, b := (m + Restrict(tokens, s))[t := tokens[t]], m + Restrict(tokens, s + {t});
    forall x | x in a
      ensures x in b && a[x] == b[x]
    {
    }
    forall x | x in b
      ensures x in a
    {
    }
  }

  /* ---------- add ---------- */

  /** What `add` queues for one term of weight `w`: the id into the term's
      word set, the term into the id's doc set, and the text under the
      document key. */
  function TermCommands(name: string, id: string, text: string, t: string, w: real): seq<Command> {
    [ZAdd(WordKey(name, t), w, id), ZAdd(DocSetKey(name, id), w, t), Set(DocKey(name, id), text)]
  }

  /** The pipeline `add` sends when it meets the terms in `order`. */
  function AddCommands(name: string, id: string, text: string, tokens: map<string, real>, order: seq<string>): (cs: seq<Command>)
    requires forall t :: t in order ==> t in tokens
    ensures |cs| == 3 * |order|
    decreases |order|
  {
    if order == [] then []
    else
      var n := |order| - 1;
      AddCommands(name, id, text, tokens, order[..n]) + TermCommands(name, id, text, order[n], tokens[order[n]])
  }

  /** The `i`-th term of `order` owns commands `3i` to `3i + 2` of the
      pipeline: its word-set ZADD, its doc-set ZADD and the SET of the text. */
  lemma {:induction false} AddCommandsAt(name: string, id: string, text: string, tokens: map<string, real>, order: seq<string>, i: nat)
    requires forall t :: t in order ==> t in tokens
    requires i < |order|
    ensures var cs := AddCommands(name, id, text, tokens, order);
            && cs[3 * i] == ZAdd(WordKey(name, order[i]), tokens[order[i]], id)
            && cs[3 * i + 1] == ZAdd(DocSetKey(name, id), tokens[order[i]], order[i])
            && cs[3 * i + 2] == Set(DocKey(name, id), text)
    decreases |order|
  {
    var n := |order| - 1;
    var init := AddCommands(name, id, text, tokens, order[..n]);
    assert AddCommands(name, id, text, tokens, order) == init + TermCommands(name, id, text, order[n], tokens[order[n]]);
    if i < n {
      AddCommandsAt(name, id, text, tokens, order[..n], i);
      assert order[..n][i] == order[i];
    }
  }

  /** add(id, text): one pipeline over the terms of `text`. */
  function Add(e: Engine, db: Db, id: string, text: string): (r: Db)
    ensures WellFormed(db) ==> WellFormed(r)
  {
    var tokens := Terms(e, text);
    var cs := AddCommands(e.name, id, text, tokens, Lex.Enumerate(tokens.Keys));
    assert WellFormed(db) ==> WellFormed(Exec(db, cs)) by {
      if WellFormed(db) { ExecWellFormed(db, cs); }
    }
    Exec(db, cs)
  }

  /** What key `key` holds once `add` has processed the terms in `s`: the
      document text, the doc set grown by those terms, and each of their word
      sets with `id` at the term's weight. Nothing else changes, and with no
      term nothing changes at all. */
  function AddedAt(name: string, db: Db, id: string, text: string, tokens: map<string, real>, s: set<string>, key: string): Option<Value>
    requires s <= tokens.Keys
  {
    if s == {} then Lookup(db, key)
    else if key == DocKey(name, id) then Some(Str(text))
    else if key == DocSetKey(name, id) then Some(ZSet(Members(db, key) + Restrict(tokens, s)))
    else match Parse(name, key)
      case Some(WordOf(t)) =>
        if t in s then Some(ZSet(Members(db, key)[id := tokens[t]])) else Lookup(db, key)
      case _ => Lookup(db, key)
  }

  /** The three commands for one term, on any store whose word and doc-set
      keys for it hold sorted sets (or nothing). */
  lemma {:induction false} TermCommandsEffect(name: string, id: string, text: string, t: string, w: real, d0: Db)
    requires ZSetAt(d0, WordKey(name, t)).Success? && ZSetAt(d0, DocSetKey(name, id)).Success?
    ensures var d := Exec(d0, TermCommands(name, id, text, t, w));
            && Lookup(d, WordKey(name, t)) == Some(ZSet(Members(d0, WordKey(name, t))[id := w]))
            && Lookup(d, DocSetKey(name, id)) == Some(ZSet(Members(d0, DocSetKey(name, id))[t := w]))
            && Lookup(d, DocKey(name, id)) == Some(Str(text))
            && forall k :: k != WordKey(name, t) && k != DocSetKey(name, id) && k != DocKey(name, id) ==>
                 Lookup(d, k) == Lookup(d0, k)
  {
    var wk, sk, dk := WordKey(name, t), DocSetKey(name, id), DocKey(name, id);
    KeysDistinct(name, t, t, id, id);
    var c1, c2, c3 := ZAdd(wk, w, id), ZAdd(sk, w, t), Set(dk, text);
    var d1 := Apply(d0, c1);
    var d2 := Apply(d1, c2);
    var d3 := Apply(d2, c3);
    assert TermCommands(name, id, text, t, w) == [c1, c2, c3];
    assert Exec(d2, [c3]) == d3 by {
      assert [c3][1..] == [];
    }
    assert Exec(d1, [c2, c3]) == Exec(d2, [c3]) by {
      assert [c2, c3][1..] == [c3];
    }
    assert Exec(d0, [c1, c2, c3]) == Exec(d1, [c2, c3]) by {
      assert [c1, c2, c3][1..] == [c2, c3];
    }
    assert Lookup(d1, sk) == Lookup(d0, sk);
  }

  /** Before a new term `t`, its word set and the doc set are as `add`
      found them, apart from the terms already processed. */
  lemma {:induction false} AddStepBefore(name: string, db: Db, id: string, text: string, tokens: map<string, real>,
                                         s: set<string>, t: string, d0: Db)
    requires Typed(name, db)
    requires s <= tokens.Keys && t !in s
    requires forall k :: Lookup(d0, k) == AddedAt(name, db, id, text, tokens, s, k)
    ensures ZSetAt(d0, WordKey(name, t)).Success? && Members(d0, WordKey(name, t)) == Members(db, WordKey(name, t))
    ensures ZSetAt(d0, DocSetKey(name, id)).Success?
    ensures Members(d0, DocSetKey(name, id)) == Members(db, DocSetKey(name, id)) + Restrict(tokens, s)
  {
    var wk, sk := WordKey(name, t), DocSetKey(name, id);
    KeysDistinct(name, t, t, id, id);
    ParseFormat(name, WordOf(t));
    assert Parse(name, wk) == Some(WordOf(t));
    assert Lookup(d0, wk) == AddedAt(name, db, id, text, tokens, s, wk);
    assert Lookup(d0, sk) == AddedAt(name, db, id, text, tokens, s, sk);
    if s == {} {
      assert Members(db, sk) + Restrict(tokens, s) == Members(db, sk);
    }
  }

  /** `r` is what `add` makes of `db` for the whole token map. */
  ghost predicate AddedAll(name: string, db: Db, id: string, text: string, tokens: map<string, real>, r: Db) {
    forall k :: Lookup(r, k) == AddedAt(name, db, id, text, tokens, tokens.Keys, k)
  }

  /** One term's three commands take the store from "`s` processed" to
      "`s` and `t` processed". */
  lemma {:induction false} AddTermStep(name: string, db: Db, id: string, text: string, tokens: map<string, real>,
                                       s: set<string>, t: string, d0: Db, key: string)
    requires Typed(name, db)
    requires s <= tokens.Keys && t in tokens && t !in s
    requires forall k :: Lookup(d0, k) == AddedAt(name, db, id, text, tokens, s, k)
    ensures Lookup(Exec(d0, TermCommands(name, id, text, t, tokens[t])), key)
            == AddedAt(name, db, id, text, tokens, s + {t}, key)
  {
    var wk, sk, dk := WordKey(name, t), DocSetKey(name, id), DocKey(name, id);
    AddStepBefore(name, db, id, text, tokens, s, t, d0);
    TermCommandsEffect(name, id, text, t, tokens[t], d0);
    if key == sk {
      RestrictGrows(Members(db, sk), tokens, s, t);
    } else if key == wk {
      ParseFormat(name, WordOf(t));
      assert Parse(name, wk) == Some(WordOf(t));
    } else if key != dk {
      assert Lookup(d0, key) == AddedAt(name, db, id, text, tokens, s, key);
      match Parse(name, key)
      case Some(WordOf(u)) =>
        FormatParse(name, key, WordOf(u));
      case _ =>
    }
  }

  /** The pipeline for any duplicate-free order of terms has the effect
      `AddedAt` describes for the set of those terms. */
  lemma {:induction false} AddPipeline(name: string, db: Db, id: string, text: string, tokens: map<string, real>,
                                       order: seq<string>, key: string)
    requires Typed(name, db)
    requires Distinct(order) && forall t :: t in order ==> t in tokens
    ensures Lookup(Exec(db, AddCommands(name, id, text, tokens, order)), key)
            == AddedAt(name, db, id, text, tokens, Elems(order), key)
    decreases |order|
  {
    if order == [] {
      assert Elems(order) == {};
    } else {
      var n := |order| - 1;
      var init, t := order[..n], order[n];
      assert order == init + [t];
      assert Elems(order) == Elems(init) + {t};
      assert t !in Elems(init);
      var d0 := Exec(db, AddCommands(name, id, text, tokens, init));
      forall k
        ensures Lookup(d0, k) == AddedAt(name, db, id, text, tokens, Elems(init), k)
      {
        AddPipeline(name, db, id, text, tokens, init, k);
      }
      ExecAppend(db, AddCommands(name, id, text, tokens, init), TermCommands(name, id, text, t, tokens[t]));
      AddTermStep(name, db, id, text, tokens, Elems(init), t, d0, key);
    }
  }

  /* ---------- remove ---------- */

  /** The pipeline `remove` sends when it meets the terms in `order`: two
      removals per term. */
  function RemoveCommands(name: string, id: string, order: seq<string>): (cs: seq<Command>)
    ensures |cs| == 2 * |order|
    ensures forall i :: 0 <= i < |order| ==>
              cs[2 * i] == ZRem(WordKey(name, order[i]), id) && cs[2 * i + 1] == ZRem(DocSetKey(name, id), order[i])
    decreases |order|
  {
    if order == [] then []
    else
      var n := |order| - 1;
      var init := RemoveCommands(name, id, order[..n]);
      var cs := init + [ZRem(WordKey(name, order[n]), id), ZRem(DocSetKey(name, id), order[n])];
      assert forall i :: 0 <= i < n ==> cs[2 * i] == init[2 * i] && cs[2 * i + 1] == init[2 * i + 1] && order[..n][i] == order[i];
      cs
  }

  /** remove(id): GET the stored text; with none, or the empty string, do
      nothing; otherwise re-tokenize it, take `id` out of each term's word
      set and each term out of the doc set, and delete the document. A GET
      on a sorted set is an error reply, and nothing is sent. */
  function Remove(e: Engine, db: Db, id: string): (r: Result<Db, StoreError>)
    ensures r.Failure? <==> DocKey(e.name, id) in db && db[DocKey(e.name, id)].ZSet?
    ensures r.Success? && WellFormed(db) ==> WellFormed(r.value)
  {
    var dk := DocKey(e.name, id);
    match Get(db, dk)
    case Failure(err) => Failure(err)
    case Success(None) => Success(db)
    case Success(Some(doc)) =>
      if doc == "" then Success(db)
      else
        var cs := RemoveCommands(e.name, id, Lex.Enumerate(Terms(e, doc).Keys)) + [Del(dk)];
        assert WellFormed(db) ==> WellFormed(Exec(db, cs)) by {
          if WellFormed(db) { ExecWellFormed(db, cs); }
        }
        Success(Exec(db, cs))
  }

  /** ZREM of every member in `xs` from the set at `key`: untouched when none
      of them is there (this covers a string at `key`, which makes each ZREM
      an error reply), otherwise what is left, deleted when nothing is. */
  function Drop(db: Db, key: string, xs: set<string>): Option<Value> {
    var m := Members(db, key);
    if m.Keys * xs == {} then Lookup(db, key) else NonEmpty(m - xs)
  }

  /** What key `key` holds once `remove` has processed the terms in `s`
      (before the final DEL). */
  function RemovedAt(name: string, db: Db, id: string, s: set<string>, key: string): Option<Value> {
    if key == DocSetKey(name, id) then Drop(db, key, s)
    else match Parse(name, key)
      case Some(WordOf(t)) => if t in s then Drop(db, key, {id}) else Lookup(db, key)
      case _ => Lookup(db, key)
  }

  /** `r` is what `remove` makes of `db` when the stored text has the terms
      `s`: their ZREMs, then the DEL of the document. */
  ghost predicate RemovedAll(name: string, db: Db, id: string, s: set<string>, r: Db) {
    forall k :: Lookup(r, k) == if k == DocKey(name, id) then None else RemovedAt(name, db, id, s, k)
  }

  /** The members of whatever `Drop` leaves. */
  lemma {:induction false} DropMembers(db: Db, key: string, xs: set<string>, d: Db)
    requires Lookup(d, key) == Drop(db, key, xs)
    ensures Members(d, key) == Members(db, key) - xs
    ensures ZSetAt(d, key).Success? <==> ZSetAt(db, key).Success?
  {
    var m := Members(db, key);
    if m.Keys * xs == {} {
      forall x | x in m
        ensures x !in xs
      {
        assert x !in m.Keys * xs;
      }
      assert m - xs == m;
    }
  }

  /** Dropping one more member `t` that was not dropped before. */
  lemma {:induction false} DropMore(db: Db, key: string, xs: set<string>, t: string, d: Db)
    requires t !in xs
    requires Lookup(d, key) == Drop(db, key, xs)
    ensures Lookup(Apply(d, ZRem(key, t)), key) == Drop(db, key, xs + {t})
  {
    DropMembers(db, key, xs, d);
    var m := Members(db, key);
    assert (m - xs) - {t} == m - (xs + {t});
    if t in m {
      assert t in m.Keys * (xs + {t});
    } else {
      assert m.Keys * (xs + {t}) == m.Keys * xs;
      assert m - (xs + {t}) == m - xs;
    }
  }

  /** Two ZREMs for one term take the store from "`s` processed" to "`s` and
      `t` processed". */
  lemma {:induction false} RemoveTermStep(name: string, db: Db, id: string, s: set<string>, t: string, d0: Db, key: string)
    requires t !in s
    requires forall k :: Lookup(d0, k) == RemovedAt(name, db, id, s, k)
    ensures Lookup(Exec(d0, [ZRem(WordKey(name, t), id), ZRem(DocSetKey(name, id), t)]), key)
            == RemovedAt(name, db, id, s + {t}, key)
  {
    var wk, sk := WordKey(name, t), DocSetKey(name, id);
    KeysDistinct(name, t, t, id, id);
    ParseFormat(name, WordOf(t));
    assert Parse(name, wk) == Some(WordOf(t));
    var c1, c2 := ZRem(wk, id), ZRem(sk, t);
    var d1 := Apply(d0, c1);
    var d2 := Apply(d1, c2);
    assert Exec(d1, [c2]) == d2 by {
      assert [c2][1..] == [];
    }
    assert Exec(d0, [c1, c2]) == Exec(d1, [c2]) by {
      assert [c1, c2][1..] == [c2];
    }
    if key == sk {
      assert Lookup(d1, sk) == Drop(db, sk, s);
      DropMore(db, sk, s, t, d1);
    } else if key == wk {
      assert Lookup(d0, wk) == Lookup(db, wk) == Drop(db, wk, {});
      assert {} + {id} == {id};
      DropMore(db, wk, {}, id, d0);
    } else {
      assert Lookup(d2, key) == Lookup(d0, key);
      match Parse(name, key)
      case Some(WordOf(u)) =>
        FormatParse(name, key, WordOf(u));
      case _ =>
    }
  }

  /** The ZREMs for any duplicate-free order of terms have the effect
      `RemovedAt` describes for the set of those terms. */
  lemma {:induction false} RemovePipeline(name: string, db: Db, id: string, order: seq<string>, key: string)
    requires Distinct(order)
    ensures Lookup(Exec(db, RemoveCommands(name, id, order)), key) == RemovedAt(name, db, id, Elems(order), key)
    decreases |order|
  {
    if order == [] {
      assert Elems(order) == {};
      if key == DocSetKey(name, id) {
        assert Members(db, key).Keys * {} == {};
      }
    } else {
      var n := |order| - 1;
      var init, t := order[..n], order[n];
      assert order == init + [t];
      assert Elems(order) == Elems(init) + {t};
      assert t !in Elems(init);
      var d0 := Exec(db, RemoveCommands(name, id, init));
      forall k
        ensures Lookup(d0, k) == RemovedAt(name, db, id, Elems(init), k)
      {
        RemovePipeline(name, db, id, init, k);
      }
      ExecAppend(db, RemoveCommands(name, id, init), [ZRem(WordKey(name, t), id), ZRem(DocSetKey(name, id), t)]);
      RemoveTermStep(name, db, id, Elems(init), t, d0, key);
    }
  }

  /** The whole `remove` pipeline for a duplicate-free order of terms. */
  lemma {:induction false} RemoveRun(name: string, db: Db, id: string, order: seq<string>)
    requires Distinct(order)
    ensures RemovedAll(name, db, id, Elems(order), Exec(db, RemoveCommands(name, id, order) + [Del(DocKey(name, id))]))
  {
    var dk := DocKey(name, id);
    var zrems := RemoveCommands(name, id, order);
    ExecAppend(db, zrems, [Del(dk)]);
    var d := Exec(db, zrems);
    assert Exec(d, [Del(dk)]) == Apply(d, Del(dk)) by {
      assert [Del(dk)][1..] == [];
    }
    var r := Apply(d, Del(dk));
    forall k
      ensures Lookup(r, k) == if k == dk then None else RemovedAt(name, db, id, Elems(order), k)
    {
      if k != dk {
        RemovePipeline(name, db, id, order, k);
      }
    }
  }

  /* ---------- search ---------- */

  /** The word-set keys of `terms`, in order. */
  function KeysOf(name: string, terms: seq<string>): (r: seq<string>)
    ensures |r| == |terms|
    ensures forall i :: 0 <= i < |terms| ==> r[i] == WordKey(name, terms[i])
    decreases |terms|
  {
    if terms == [] then [] else [WordKey(name, terms[0])] + KeysOf(name, terms[1..])
  }

  /** The distinct terms of a query, in the order the host enumerates them. */
  function QueryTerms(e: Engine, query: string): seq<string> {
    Lex.Enumerate(Terms(e, query).Keys)
  }

  /** The keys ZINTER is given. */
  function QueryKeys(e: Engine, query: string): seq<string> {
    KeysOf(e.name, QueryTerms(e, query))
  }

  /** The text stored for `id`, or "" when there is none. */
  function Content(db: Db, name: string, id: string): (s: string)
    ensures DocKey(name, id) in db && db[DocKey(name, id)].Str? ==> s == db[DocKey(name, id)].text
    ensures DocKey(name, id) !in db ==> s == ""
  {
    match Get(db, DocKey(name, id))
    case Success(Some(s)) => s
    case _ => ""
  }

  /** One GET per matching id, in reply order; any error reply rejects the
      whole search. */
  function Hydrate(db: Db, name: string, ids: seq<string>, scores: map<string, real>): (r: Result<seq<Hit>, StoreError>)
    requires forall x :: x in ids ==> x in scores
    ensures r.Success? <==> forall i :: 0 <= i < |ids| ==> Get(db, DocKey(name, ids[i])).Success?
    ensures r.Failure? ==> r.error == WrongType
    ensures r.Success? ==> |r.value| == |ids|
    ensures r.Success? ==> forall i :: 0 <= i < |ids| ==> r.value[i] == Hit(ids[i], Content(db, name, ids[i]), scores[ids[i]])
    decreases |ids|
  {
    if ids == [] then Success([])
    else
      var rest := Hydrate(db, name, ids[1..], scores);
      assert forall i :: 1 <= i < |ids| ==> ids[i] == ids[1..][i - 1];
      match Get(db, DocKey(name, ids[0]))
      case Failure(err) => Failure(err)
      case Success(doc) =>
        match rest
        case Failure(err) => Failure(err)
        case Success(hits) => Success([Hit(ids[0], doc.GetOr(""), scores[ids[0]])] + hits)
  }

  /** What `search` does once the query is tokenized: ZINTER over `keys`,
      then one GET per match in reply order, then the sort by score. */
  function SearchKeys(db: Db, name: string, keys: seq<string>): (r: Result<seq<Hit>, StoreError>)
    ensures keys == [] ==> r == Failure(NoKeys)
    ensures r.Success? ==> Descending(r.value)
  {
    match ZInter(db, keys)
    case Failure(err) => Failure(err)
    case Success(scores) =>
      var ids := Lex.Enumerate(scores.Keys);
      match Hydrate(db, name, ids, scores)
      case Failure(err) => Failure(err)
      case Success(hits) => Success(SortByScore(hits))
  }

  /** search(query): the documents in the word set of every query term,
      scored with the sum of their weights, highest score first. A query with
      no terms sends ZINTER with no key, which is an error reply; so is a
      string under a query word key or a sorted set under the document key
      of a match. */
  function Search(e: Engine, db: Db, query: string): (r: Result<seq<Hit>, StoreError>)
    ensures Terms(e, query) == map[] ==> r == Failure(NoKeys)
    ensures r.Success? ==> Descending(r.value)
  {
    SearchKeys(db, e.name, QueryKeys(e, query))
  }
}

=== FILE: fts_effects.dfy ===
/** Consequences of the key-by-key effects of `add` and `remove`
    (`AddedAll`, `RemovedAll`), for any token map: which postings change,
    which keys stay, and that the index keeps its types. */
module FtsEffects {
  import opened Wrappers
  import opened RedisStore
  import opened FtsKeys
  import opened Fts

  /** The word key of `t` reads back as the word `t`. */
  lemma {:induction false} WordKeyParses(name: string, t: string)
    ensures Parse(name, WordKey(name, t)) == Some(WordOf(t))
  {
    ParseFormat(name, WordOf(t));
  }

  /* ---------- add ---------- */

  lemma {:induction false} PostingsAdded(name: string, db: Db, id: string, text: string, tokens: map<string, real>, r: Db, t: string)
    requires Typed(name, db) && AddedAll(name, db, id, text, tokens, r)
    requires t in tokens
    ensures Lookup(r, WordKey(name, t)) == Some(ZSet(Members(db, WordKey(name, t))[id := tokens[t]]))
    ensures Members(r, WordKey(name, t)) == Members(db, WordKey(name, t))[id := tokens[t]]
  {
    KeysDistinct(name, t, t, id, id);
    WordKeyParses(name, t);
    assert Lookup(r, WordKey(name, t)) == AddedAt(name, db, id, text, tokens, tokens.Keys, WordKey(name, t));
  }

  lemma {:induction false} DocSetAdded(name: string, db: Db, id: string, text: string, tokens: map<string, real>, r: Db)
    requires Typed(name, db) && AddedAll(name, db, id, text, tokens, r)
    ensures Members(r, DocSetKey(name, id)) == Members(db, DocSetKey(name, id)) + tokens
  {
    var sk := DocSetKey(name, id);
    KeysDistinct(name, "", "", id, id);
    assert Lookup(r, sk) == AddedAt(name, db, id, text, tokens, tokens.Keys, sk);
    if tokens == map[] {
      assert Members(db, sk) + tokens == Members(db, sk);
    } else {
      assert tokens.Keys != {};
      assert Restrict(tokens, tokens.Keys) == tokens;
    }
  }

  lemma {:induction false} DocumentAdded(name: string, db: Db, id: string, text: string, tokens: map<string, real>, r: Db)
    requires AddedAll(name, db, id, text, tokens, r)
    ensures tokens != map[] ==> Lookup(r, DocKey(name, id)) == Some(Str(text))
    ensures tokens == map[] ==> r == db
  {
    assert Lookup(r, DocKey(name, id)) == AddedAt(name, db, id, text, tokens, tokens.Keys, DocKey(name, id));
    if tokens != map[] {
      assert tokens.Keys != {};
    } else {
      assert tokens.Keys == {};
      LookupExt(r, db);
    }
  }

  lemma {:induction false} UntouchedByAdd(name: string, db: Db, id: string, text: string, tokens: map<string, real>, r: Db, key: string)
    requires AddedAll(name, db, id, text, tokens, r)
    requires key != DocKey(name, id) && key != DocSetKey(name, id)
    requires forall t :: t in tokens ==> key != WordKey(name, t)
    ensures Lookup(r, key) == Lookup(db, key)
  {
    assert Lookup(r, key) == AddedAt(name, db, id, text, tokens, tokens.Keys, key);
    match Parse(name, key)
    case Some(WordOf(u)) =>
      FormatParse(name, key, WordOf(u));
    case _ =>
  }

  lemma {:induction false} OthersAfterAdd(name: string, db: Db, id: string, text: string, tokens: map<string, real>, r: Db, x: string, t: string)
    requires Typed(name, db) && AddedAll(name, db, id, text, tokens, r)
    requires x != id
    ensures x in Members(r, WordKey(name, t)) <==> x in Members(db, WordKey(name, t))
    ensures x in Members(db, WordKey(name, t)) ==> Members(r, WordKey(name, t))[x] == Members(db, WordKey(name, t))[x]
    ensures Lookup(r, DocSetKey(name, x)) == Lookup(db, DocSetKey(name, x))
    ensures Lookup(r, DocKey(name, x)) == Lookup(db, DocKey(name, x))
  {
    var wk := WordKey(name, t);
    KeysDistinct(name, t, t, x, id);
    KeysDistinct(name, t, t, id, x);
    WordKeyParses(name, t);
    ParseFormat(name, DocSetOf(x));
    ParseFormat(name, DocOf(x));
    assert Parse(name, DocSetKey(name, x)) == Some(DocSetOf(x));
    assert Parse(name, DocKey(name, x)) == Some(DocOf(x));
    assert Lookup(r, wk) == AddedAt(name, db, id, text, tokens, tokens.Keys, wk);
    assert Lookup(r, DocSetKey(name, x)) == AddedAt(name, db, id, text, tokens, tokens.Keys, DocSetKey(name, x));
    assert Lookup(r, DocKey(name, x)) == AddedAt(name, db, id, text, tokens, tokens.Keys, DocKey(name, x));
  }

  lemma {:induction false} TypedAfterAdd(name: string, db: Db, id: string, text: string, tokens: map<string, real>, r: Db)
    requires Typed(name, db) && AddedAll(name, db, id, text, tokens, r)
    ensures Typed(name, r)
  {
    forall t | WordKey(name, t) in r
      ensures r[WordKey(name, t)].ZSet?
    {
      assert Lookup(r, WordKey(name, t)) == AddedAt(name, db, id, text, tokens, tokens.Keys, WordKey(name, t));
      KeysDistinct(name, t, t, id, id);
      WordKeyParses(name, t);
    }
    forall x | DocSetKey(name, x) in r
      ensures r[DocSetKey(name, x)].ZSet?
    {
      assert Lookup(r, DocSetKey(name, x)) == AddedAt(name, db, id, text, tokens, tokens.Keys, DocSetKey(name, x));
      KeysDistinct(name, "", "", x, id);
      ParseFormat(name, DocSetOf(x));
      assert Parse(name, DocSetKey(name, x)) == Some(DocSetOf(x));
    }
    forall x | DocKey(name, x) in r
      ensures r[DocKey(name, x)].Str?
    {
      assert Lookup(r, DocKey(name, x)) == AddedAt(name, db, id, text, tokens, tokens.Keys, DocKey(name, x));
      KeysDistinct(name, "", "", x, id);
      KeysDistinct(name, "", "", id, x);
      ParseFormat(name, DocOf(x));
      assert Parse(name, DocKey(name, x)) == Some(DocOf(x));
    }
  }

  /* ---------- remove ---------- */

  lemma {:induction false} OthersAfterRemove(name: string, db: Db, id: string, s: set<string>, r: Db, x: string, t: string)
    requires RemovedAll(name, db, id, s, r)
    requires x != id
    ensures x in Members(r, WordKey(name, t)) <==> x in Members(db, WordKey(name, t))
    ensures x in Members(db, WordKey(name, t)) ==> Members(r, WordKey(name, t))[x] == Members(db, WordKey(name, t))[x]
    ensures Lookup(r, DocSetKey(name, x)) == Lookup(db, DocSetKey(name, x))
    ensures Lookup(r, DocKey(name, x)) == Lookup(db, DocKey(name, x))
  {
    var wk := WordKey(name, t);
    KeysDistinct(name, t, t, x, id);
    KeysDistinct(name, t, t, id, x);
    WordKeyParses(name, t);
    ParseFormat(name, DocSetOf(x));
    ParseFormat(name, DocOf(x));
    assert Parse(name, DocSetKey(name, x)) == Some(DocSetOf(x));
    assert Parse(name, DocKey(name, x)) == Some(DocOf(x));
    assert Lookup(r, wk) == RemovedAt(name, db, id, s, wk);
    assert Lookup(r, DocSetKey(name, x)) == RemovedAt(name, db, id, s, DocSetKey(name, x));
    assert Lookup(r, DocKey(name, x)) == RemovedAt(name, db, id, s, DocKey(name, x));
    var m := Members(db, wk);
    if m.Keys * {id} != {} && m - {id} == map[] {
      assert x !in m - {id};
    }
  }

  lemma {:induction false} TypedAfterRemove(name: string, db: Db, id: string, s: set<string>, r: Db)
    requires Typed(name, db) && RemovedAll(name, db, id, s, r)
    ensures Typed(name, r)
  {
    forall t | WordKey(name, t) in r
      ensures r[WordKey(name, t)].ZSet?
    {
      assert Lookup(r, WordKey(name, t)) == RemovedAt(name, db, id, s, WordKey(name, t));
      KeysDistinct(name, t, t, id, id);
      WordKeyParses(name, t);
    }
    forall x | DocSetKey(name, x) in r
      ensures r[DocSetKey(name, x)].ZSet?
    {
      assert Lookup(r, DocSetKey(name, x)) == RemovedAt(name, db, id, s, DocSetKey(name, x));
      KeysDistinct(name, "", "", x, id);
      ParseFormat(name, DocSetOf(x));
      assert Parse(name, DocSetKey(name, x)) == Some(DocSetOf(x));
    }
    forall x | DocKey(name, x) in r
      ensures r[DocKey(name, x)].Str?
    {
      assert Lookup(r, DocKey(name, x)) == if DocKey(name, x) == DocKey(name, id) then None else RemovedAt(name, db, id, s, DocKey(name, x));
      KeysDistinct(name, "", "", x, id);
      ParseFormat(name, DocOf(x));
      assert Parse(name, DocKey(name, x)) == Some(DocOf(x));
    }
  }

  /* ---------- add, then remove ---------- */

  /** One key after adding a fresh document and removing the same terms
      again: the ZREMs undo exactly what the ZADDs did. */
  lemma {:induction false} RoundTripAt(name: string, db: Db, id: string, text: string, tokens: map<string, real>, db1: Db, key: string)
    requires Typed(name, db) && WellFormed(db) && Fresh(name, db, id)
    requires AddedAll(name, db, id, text, tokens, db1)
    requires tokens != map[]
    requires key != DocKey(name, id)
    ensures RemovedAt(name, db1, id, tokens.Keys, key) == Lookup(db, key)
  {
    var s := tokens.Keys;
    var sk := DocSetKey(name, id);
    if key == sk {
      DocSetAdded(name, db, id, text, tokens, db1);
      assert Members(db, sk) + tokens == tokens;
      var t :| t in s;
      assert t in Members(db1, sk).Keys * s;
      assert Members(db1, sk) - s == map[];
    } else {
      match Parse(name, key)
      case Some(WordOf(t)) =>
        FormatParse(name, key, WordOf(t));
        if t in s {
          PostingsAdded(name, db, id, text, tokens, db1, t);
          var m := Members(db, key);
          assert id !in m;
          assert id in Members(db1, key).Keys * {id};
          assert m[id := tokens[t]] - {id} == m;
        } else {
          UntouchedByAdd(name, db, id, text, tokens, db1, key);
        }
      case _ =>
        forall t | t in tokens
          ensures key != WordKey(name, t)
        {
          WordKeyParses(name, t);
        }
        UntouchedByAdd(name, db, id, text, tokens, db1, key);
    }
  }
}

=== FILE: fts_facts.dfy ===
/** What `add` and `remove` do to the index, stated for the engine's callers:
    which postings they write or drop, what they leave alone, and that
    removing a freshly added document restores the store. */
module FtsFacts {
  import opened Wrappers
  import opened Text
  import opened Tokenizer
  import opened TokenizerFacts
  import opened RedisStore
  import opened FtsKeys
  import Lex
  import opened Fts
  import opened FtsEffects

  /** The host's enumeration of a key set lists each key once. */
  lemma {:induction false} EnumerateOrder(s: set<string>)
    ensures Distinct(Lex.Enumerate(s))
    ensures Elems(Lex.Enumerate(s)) == s
  {
    var r := Lex.Enumerate(s);
    forall i, j | 0 <= i < j < |r|
      ensures r[i] != r[j]
    {
      Lex.Irreflexive(r[i]);
    }
    assert Elems(r) == s;
  }

  /* ---------- add ---------- */

  /** On an index whose keys hold the right types, `add` has exactly the
      effect `AddedAt` describes for the whole term set of `text`. */
  lemma {:induction false} AddEffect(e: Engine, db: Db, id: string, text: string)
    requires Typed(e.name, db)
    ensures AddedAll(e.name, db, id, text, Terms(e, text), Add(e, db, id, text))
  {
    var tokens := Terms(e, text);
    var order := Lex.Enumerate(tokens.Keys);
    EnumerateOrder(tokens.Keys);
    forall k
      ensures Lookup(Add(e, db, id, text), k) == AddedAt(e.name, db, id, text, tokens, tokens.Keys, k)
    {
      AddPipeline(e.name, db, id, text, tokens, order, k);
    }
  }

  /** A text without terms adds nothing, not even the document. */
  lemma {:induction false} AddNothing(e: Engine, db: Db, id: string, text: string)
    requires Terms(e, text) == map[]
    ensures Add(e, db, id, text) == db
  {
    var tokens := Terms(e, text);
    assert tokens.Keys == {};
    assert Lex.Enumerate(tokens.Keys) == [];
  }

  /** Each term's word set maps `id` to the term's weight, replacing any
      earlier weight rather than adding to it. */
  lemma {:induction false} AddPostings(e: Engine, db: Db, id: string, text: string, t: string)
    requires Typed(e.name, db)
    requires t in Terms(e, text)
    ensures Members(Add(e, db, id, text), WordKey(e.name, t)) == Members(db, WordKey(e.name, t))[id := Terms(e, text)[t]]
  {
    AddEffect(e, db, id, text);
    PostingsAdded(e.name, db, id, text, Terms(e, text), Add(e, db, id, text), t);
  }

  /** The doc set of `id` gains every term of `text` at its weight; terms it
      held before stay. */
  lemma {:induction false} AddDocSet(e: Engine, db: Db, id: string, text: string)
    requires Typed(e.name, db)
    ensures Members(Add(e, db, id, text), DocSetKey(e.name, id)) == Members(db, DocSetKey(e.name, id)) + Terms(e, text)
  {
    AddEffect(e, db, id, text);
    DocSetAdded(e.name, db, id, text, Terms(e, text), Add(e, db, id, text));
  }

  /** The text is stored exactly when it has a term. */
  lemma {:induction false} AddDocument(e: Engine, db: Db, id: string, text: string)
    requires Typed(e.name, db)
    ensures Terms(e, text) != map[] ==> Lookup(Add(e, db, id, text), DocKey(e.name, id)) == Some(Str(text))
    ensures Terms(e, text) == map[] ==> Add(e, db, id, text) == db
  {
    AddEffect(e, db, id, text);
    DocumentAdded(e.name, db, id, text, Terms(e, text), Add(e, db, id, text));
  }

  /** Every key that is not the document, the doc set or the word set of one
      of the new terms is left as it was. */
  lemma {:induction false} AddElsewhere(e: Engine, db: Db, id: string, text: string, key: string)
    requires Typed(e.name, db)
    requires key != DocKey(e.name, id) && key != DocSetKey(e.name, id)
    requires forall t :: t in Terms(e, text) ==> key != WordKey(e.name, t)
    ensures Lookup(Add(e, db, id, text), key) == Lookup(db, key)
  {
    AddEffect(e, db, id, text);
    UntouchedByAdd(e.name, db, id, text, Terms(e, text), Add(e, db, id, text), key);
  }

  /** Re-adding an id leaves its postings under terms the new text lacks:
      they go stale rather than away. */
  lemma {:induction false} AddLeavesStale(e: Engine, db: Db, id: string, text: string, t: string)
    requires Typed(e.name, db)
    requires t !in Terms(e, text)
    ensures Lookup(Add(e, db, id, text), WordKey(e.name, t)) == Lookup(db, WordKey(e.name, t))
  {
    KeysDistinct(e.name, t, t, id, id);
    forall u | u in Terms(e, text)
      ensures WordKey(e.name, t) != WordKey(e.name, u)
    {
      KeysDistinct(e.name, t, u, id, id);
    }
    AddElsewhere(e, db, id, text, WordKey(e.name, t));
  }

  /** Other documents keep their postings, doc sets and texts. */
  lemma {:induction false} AddOtherIds(e: Engine, db: Db, id: string, text: string, x: string, t: string)
    requires Typed(e.name, db)
    requires x != id
    ensures x in Members(Add(e, db, id, text), WordKey(e.name, t)) <==> x in Members(db, WordKey(e.name, t))
    ensures x in Members(db, WordKey(e.name, t)) ==>
              Members(Add(e, db, id, text), WordKey(e.name, t))[x] == Members(db, WordKey(e.name, t))[x]
    ensures Lookup(Add(e, db, id, text), DocSetKey(e.name, x)) == Lookup(db, DocSetKey(e.name, x))
    ensures Lookup(Add(e, db, id, text), DocKey(e.name, x)) == Lookup(db, DocKey(e.name, x))
  {
    AddEffect(e, db, id, text);
    OthersAfterAdd(e.name, db, id, text, Terms(e, text), Add(e, db, id, text), x, t);
  }

  /** `add` keeps every key of the index holding the right type. */
  lemma {:induction false} AddKeepsTyped(e: Engine, db: Db, id: string, text: string)
    requires Typed(e.name, db)
    ensures Typed(e.name, Add(e, db, id, text))
  {
    AddEffect(e, db, id, text);
    TypedAfterAdd(e.name, db, id, text, Terms(e, text), Add(e, db, id, text));
  }

  /* ---------- remove ---------- */

  /** With no stored text, or an empty one, `remove` does nothing. */
  lemma {:induction false} RemoveNoop(e: Engine, db: Db, id: string)
    requires DocKey(e.name, id) !in db || db[DocKey(e.name, id)] == Str("")
    ensures Remove(e, db, id) == Success(db)
  {
  }

  /** With a non-empty stored text, `remove` drops `id` from the word set of
      every term of that text, drops those terms from the doc set, deletes the
      document, and leaves every other key alone. */
  lemma {:induction false} RemoveEffect(e: Engine, db: Db, id: string, doc: string)
    requires DocKey(e.name, id) in db && db[DocKey(e.name, id)] == Str(doc) && doc != ""
    ensures Remove(e, db, id).Success?
    ensures RemovedAll(e.name, db, id, Terms(e, doc).Keys, Remove(e, db, id).value)
  {
    var order := Lex.Enumerate(Terms(e, doc).Keys);
    EnumerateOrder(Terms(e, doc).Keys);
    RemoveRun(e.name, db, id, order);
  }

  /** Other documents keep their postings, doc sets and texts. */
  lemma {:induction false} RemoveOtherIds(e: Engine, db: Db, id: string, x: string, t: string)
    requires Remove(e, db, id).Success?
    requires x != id
    ensures x in Members(Remove(e, db, id).value, WordKey(e.name, t)) <==> x in Members(db, WordKey(e.name, t))
    ensures x in Members(db, WordKey(e.name, t)) ==>
              Members(Remove(e, db, id).value, WordKey(e.name, t))[x] == Members(db, WordKey(e.name, t))[x]
    ensures Lookup(Remove(e, db, id).value, DocSetKey(e.name, x)) == Lookup(db, DocSetKey(e.name, x))
    ensures Lookup(Remove(e, db, id).value, DocKey(e.name, x)) == Lookup(db, DocKey(e.name, x))
  {
    var dk := DocKey(e.name, id);
    if dk in db && db[dk].text != "" {
      RemoveEffect(e, db, id, db[dk].text);
      OthersAfterRemove(e.name, db, id, Terms(e, db[dk].text).Keys, Remove(e, db, id).value, x, t);
    }
  }

  /** `remove` keeps every key of the index holding the right type. */
  lemma {:induction false} RemoveKeepsTyped(e: Engine, db: Db, id: string)
    requires Typed(e.name, db)
    requires Remove(e, db, id).Success?
    ensures Typed(e.name, Remove(e, db, id).value)
  {
    var dk := DocKey(e.name, id);
    if dk in db && db[dk].text != "" {
      RemoveEffect(e, db, id, db[dk].text);
      TypedAfterRemove(e.name, db, id, Terms(e, db[dk].text).Keys, Remove(e, db, id).value);
    }
  }

  /* ---------- add, then remove ---------- */

  /** The empty text has no terms. */
  lemma {:induction false} EmptyTextNoTerms(e: Engine)
    ensures Terms(e, "") == map[]
  {
    assert Normalize(e.lib, "") == "";
    assert ReplacePunctuation(StripMarks("")) == "";
    SplitBlank("");
    assert Tokens(e.lib, "") == [""];
    DropAll([""], e.stopwords);
  }

  /** Removing a freshly added document restores the store exactly, on an
      index whose keys hold the right types and whose sorted sets are
      non-empty, as Redis keeps them. */
  lemma {:induction false} RemoveUndoesAdd(e: Engine, db: Db, id: string, text: string)
    requires Typed(e.name, db) && WellFormed(db) && Fresh(e.name, db, id)
    ensures Remove(e, Add(e, db, id, text), id) == Success(db)
  {
    var dk := DocKey(e.name, id);
    var tokens := Terms(e, text);
    if tokens == map[] {
      AddNothing(e, db, id, text);
      RemoveNoop(e, db, id);
    } else {
      var db1 := Add(e, db, id, text);
      AddDocument(e, db, id, text);
      EmptyTextNoTerms(e);
      assert text != "";
      assert dk in db1 && db1[dk] == Str(text);
      RemoveEffect(e, db1, id, text);
      AddEffect(e, db, id, text);
      var r := Remove(e, db1, id).value;
      forall key
        ensures Lookup(r, key) == Lookup(db, key)
      {
        if key != dk {
          RoundTripAt(e.name, db, id, text, tokens, db1, key);
        }
      }
      LookupExt(r, db);
    }
  }
}

=== FILE: fts_keys.dfy ===
/** The Redis key layout of one index (src/FTS.ts, getWordKey,
    getDocumentSetKey and getDocumentKey).

    An index named `name` keeps, for each term, the sorted set of documents
    containing it under `fts:{name}:word:{term}`; for each document, the
    sorted set of its terms under `fts:{name}:docset:{id}`; and the document's
    text under `fts:{name}:doc:{id}`. Within one index the three families
    never collide: `Parse` recovers the family and the term or id from any
    key. */
module FtsKeys {
  import opened Wrappers

  function WordKey(name: string, term: string): string {
    "fts:" + name + ":word:" + term
  }

  function DocSetKey(name: string, id: string): string {
    "fts:" + name + ":docset:" + id
  }

  function DocKey(name: string, id: string): string {
    "fts:" + name + ":doc:" + id
  }

  /** What a key of the index stands for. */
  datatype Key = WordOf(term: string) | DocSetOf(docSet: string) | DocOf(doc: string)

  function Format(name: string, k: Key): string {
    match k
    case WordOf(t) => WordKey(name, t)
    case DocSetOf(id) => DocSetKey(name, id)
    case DocOf(id) => DocKey(name, id)
  }

  predicate HasPrefix(s: string, p: string) {
    |p| <= |s| && s[..|p|] == p
  }

  /** `fts:{name}:`, which every key of the index starts with. */
  function Prefix(name: string): string {
    "fts:" + name + ":"
  }

  /** Reads a key of the index `name` back; keys outside the layout give
      nothing. */
  function Parse(name: string, key: string): Option<Key> {
    var p := Prefix(name);
    if !HasPrefix(key, p) then None
    else
      var rest := key[|p|..];
      if HasPrefix(rest, "word:") then Some(WordOf(rest[5..]))
      else if HasPrefix(rest, "docset:") then Some(DocSetOf(rest[7..]))
      else if HasPrefix(rest, "doc:") then Some(DocOf(rest[4..]))
      else None
  }

  lemma {:induction false} FormatSplits(name: string, k: Key)
    ensures HasPrefix(Format(name, k), Prefix(name))
    ensures Format(name, k)[|Prefix(name)|..]
            == match k
               case WordOf(t) => "word:" + t
               case DocSetOf(id) => "docset:" + id
               case DocOf(id) => "doc:" + id
  {
    var p := Prefix(name);
    match k
    case WordOf(t) =>
      assert WordKey(name, t) == p + ("word:" + t);
    case DocSetOf(id) =>
      assert DocSetKey(name, id) == p + ("docset:" + id);
    case DocOf(id) =>
      assert DocKey(name, id) == p + ("doc:" + id);
  }

  /** Every key of the layout parses back to what it was made from. */
  lemma {:induction false} ParseFormat(name: string, k: Key)
    ensures Parse(name, Format(name, k)) == Some(k)
  {
    FormatSplits(name, k);
    var rest := Format(name, k)[|Prefix(name)|..];
    match k
    case WordOf(t) =>
      assert rest[..5] == "word:";
      assert rest[5..] == t;
    case DocSetOf(id) =>
      assert rest[0] == 'd';
      assert rest[..7] == "docset:";
      assert rest[7..] == id;
    case DocOf(id) =>
      assert rest[0] == 'd' && rest[3] == ':';
      assert rest[..4] == "doc:";
      assert rest[4..] == id;
  }

  /** A string that starts with `p` is `p` followed by the rest. */
  lemma {:induction false} PrefixSplit(s: string, p: string)
    requires HasPrefix(s, p)
    ensures s == p + s[|p|..]
  {
    assert s == s[..|p|] + s[|p|..];
  }

  /** A key of the index is its prefix, a family tag and the rest. */
  lemma {:induction false} TagSplit(name: string, key: string, tag: string)
    requires HasPrefix(key, Prefix(name)) && HasPrefix(key[|Prefix(name)|..], tag)
    ensures key == "fts:" + name + (":" + tag) + key[|Prefix(name)|..][|tag|..]
  {
    var p := Prefix(name);
    var rest := key[|p|..];
    PrefixSplit(key, p);
    PrefixSplit(rest, tag);
    assert key == p + (tag + rest[|tag|..]);
  }

  /** Conversely, a key that parses is exactly the key of what it parses to. */
  lemma {:induction false} FormatParse(name: string, key: string, k: Key)
    requires Parse(name, key) == Some(k)
    ensures Format(name, k) == key
  {
    var rest := key[|Prefix(name)|..];
    if HasPrefix(rest, "word:") {
      TagSplit(name, key, "word:");
      assert ":" + "word:" == ":word:";
    } else if HasPrefix(rest, "docset:") {
      TagSplit(name, key, "docset:");
      assert ":" + "docset:" == ":docset:";
    } else {
      TagSplit(name, key, "doc:");
      assert ":" + "doc:" == ":doc:";
    }
  }

  /** Within one index, two keys coincide exactly when they stand for the same
      thing: the word, doc-set and document families are disjoint, and each
      is injective in its term or id. */
  lemma {:induction false} FormatInjective(name: string, k1: Key, k2: Key)
    ensures Format(name, k1) == Format(name, k2) <==> k1 == k2
  {
    ParseFormat(name, k1);
    ParseFormat(name, k2);
  }

  /** The three families in the terms the engine uses. */
  lemma {:induction false} KeysDistinct(name: string, t: string, u: string, id: string, jd: string)
    ensures WordKey(name, t) == WordKey(name, u) <==> t == u
    ensures DocSetKey(name, id) == DocSetKey(name, jd) <==> id == jd
    ensures DocKey(name, id) == DocKey(name, jd) <==> id == jd
    ensures WordKey(name, t) != DocSetKey(name, id)
    ensures WordKey(name, t) != DocKey(name, id)
    ensures DocSetKey(name, id) != DocKey(name, jd)
  {
    FormatInjective(name, WordOf(t), WordOf(u));
    FormatInjective(name, DocSetOf(id), DocSetOf(jd));
    FormatInjective(name, DocOf(id), DocOf(jd));
    FormatInjective(name, WordOf(t), DocSetOf(id));
    FormatInjective(name, WordOf(t), DocOf(id));
    FormatInjective(name, DocSetOf(id), DocOf(jd));
  }
}

=== FILE: js_tally.dfy ===
/** The weighting `reduce` of src/tokenize.ts as JavaScript evaluates it.

    The accumulator starts as the object literal `{}`, which inherits the
    properties of `Object.prototype`. The test `acc[word] ? ... : ...` reads
    those inherited properties too, so a word named like one of them starts
    from a function value instead of from nothing, and `+ fraction` then
    concatenates strings. `Tokenizer.Tally` is the intended weighting: the two
    agree on every word list that avoids those names. */
module JsTally {
  import opened Wrappers
  import opened Tokenizer

  /** What a property of the accumulator holds: a number, or some other
      (truthy) value such as an inherited function or a string. */
  datatype JsValue = Num(n: real) | Other

  /** The property names of `Object.prototype` whose assignment creates an
      own property. `__proto__` is not among them: assigning a string to it
      is ignored, which `TallyAsWritten` does not model (no token can be
      `__proto__` unless a stemmer makes one, since `_` is punctuation). */
  const Inherited: set<string> := {
    "constructor", "hasOwnProperty", "isPrototypeOf", "propertyIsEnumerable",
    "toLocaleString", "toString", "valueOf",
    "__defineGetter__", "__defineSetter__", "__lookupGetter__", "__lookupSetter__"
  }

  /** `acc[w]`: an own property, else an inherited one, else `undefined`. */
  function Read(acc: map<string, JsValue>, w: string): (r: Option<JsValue>)
    ensures w in acc ==> r == Some(acc[w])
    ensures w !in acc ==> (r.Some? <==> w in Inherited)
  {
    if w in acc then Some(acc[w]) else if w in Inherited then Some(Other) else None
  }

  /** JavaScript truthiness of what `Read` gives: `undefined` and `0` are
      falsy, every function and every non-empty string is truthy. */
  predicate Truthy(v: Option<JsValue>) {
    v.Some? && (v.value.Other? || v.value.n != 0.0)
  }

  /** `v + fraction`: a sum for a number, a string for anything else. */
  function Plus(v: JsValue, fraction: real): (r: JsValue)
    ensures r.Num? <==> v.Num?
    ensures v.Num? ==> r.n == v.n + fraction
  {
    if v.Num? then Num(v.n + fraction) else Other
  }

  /** The source's `words.reduce(...)`, property lookups as JavaScript does
      them. */
  function TallyAsWritten(words: seq<string>, fraction: real, acc: map<string, JsValue>): map<string, JsValue>
    decreases |words|
  {
    if words == [] then acc
    else
      var w := words[0];
      var cur := Read(acc, w);
      TallyAsWritten(words[1..], fraction, acc[w := if Truthy(cur) then Plus(cur.value, fraction) else Num(fraction)])
  }

  /** A map of numbers seen as accumulator properties. */
  function Lift(m: map<string, real>): (r: map<string, JsValue>)
    ensures forall k :: k in r <==> k in m
    ensures forall k :: k in r ==> r[k] == Num(m[k])
  {
    map k | k in m :: Num(m[k])
  }

  lemma {:induction false} LiftUpdate(m: map<string, real>, w: string, v: real)
    ensures Lift(m)[w := Num(v)] == Lift(m[w := v])
  {
    var a, b := Lift(m)[w := Num(v)], Lift(m[w := v]);
    assert forall k :: k in a <==> k in b;
    assert forall k :: k in a ==> a[k] == b[k];
  }

  /** Off the inherited names, with positive weights, the reduce as written
      is exactly the intended tally. */
  lemma {:induction false} AgreesOffPrototype(words: seq<string>, fraction: real, acc: map<string, real>)
    requires fraction > 0.0
    requires forall k :: k in acc ==> acc[k] > 0.0
    requires forall i :: 0 <= i < |words| ==> words[i] !in Inherited
    ensures TallyAsWritten(words, fraction, Lift(acc)) == Lift(Tally(words, fraction, acc))
    decreases |words|
  {
    if words != [] {
      var w := words[0];
      assert w !in Inherited;
      var v := if w in acc then acc[w] + fraction else fraction;
      assert Truthy(Read(Lift(acc), w)) <==> w in acc;
      LiftUpdate(acc, w, v);
      assert forall i :: 0 <= i < |words[1..]| ==> words[1..][i] == words[i + 1];
      AgreesOffPrototype(words[1..], fraction, acc[w := v]);
    }
  }

  /** The weighting of the source as written: the reduce started from `{}`
      with fraction 1/(n+1). */
  function WeighAsWritten(words: seq<string>): map<string, JsValue> {
    TallyAsWritten(words, 1.0 / (|words| + 1) as real, map[])
  }

  /** On words that avoid the inherited names, the source's weighting is the
      intended one: every occurrence worth 1/(n+1). */
  lemma {:induction false} WeighAgrees(words: seq<string>)
    requires forall i :: 0 <= i < |words| ==> words[i] !in Inherited
    ensures WeighAsWritten(words) == Lift(Weigh(words))
  {
    assert Lift(map[]) == map[];
    AgreesOffPrototype(words, 1.0 / (|words| + 1) as real, map[]);
  }

  /** The single word "constructor" (all lower case, so the tokenizer passes
      it through) gets no numeric weight: `acc["constructor"]` is the
      inherited `Object` function, and adding the fraction to it makes a
      string. The intended weight is 1/2. */
  lemma {:induction false} ConstructorNotWeighed()
    ensures WeighAsWritten(["constructor"]) == map["constructor" := Other]
    ensures Weigh(["constructor"]) == map["constructor" := 0.5]
  {
    var words := ["constructor"];
    var fraction := 1.0 / (|words| + 1) as real;
    assert Read(map[], "constructor") == Some(Other);
    assert words[1..] == [];
    assert WeighAsWritten(words) == TallyAsWritten([], fraction, map["constructor" := Other]);
    assert Weigh(words)["constructor"] == Share(Count("constructor", words), 1);
    assert Count("constructor", words) == 1 by {
      assert Count("constructor", words) == 1 + Count("constructor", []);
    }
  }
}

=== FILE: lex.dfy ===
/** Lexicographic order on strings by code point, and the enumeration of a
    finite set of strings in that order.

    Redis compares sorted-set members byte-wise on their UTF-8 encoding, and
    UTF-8 preserves code-point order, so `Less` is the order Redis uses to
    break score ties. The model also uses `Enumerate` wherever the source walks
    the keys of an object and the order of that walk does not matter. */
module Lex {

  /** `a` sorts strictly before `b`. */
  predicate Less(a: string, b: string)
    decreases |a|
  {
    if |a| == 0 then |b| > 0
    else if |b| == 0 then false
    else a[0] < b[0] || (a[0] == b[0] && Less(a[1..], b[1..]))
  }

  lemma {:induction false} Irreflexive(a: string)
    ensures !Less(a, a)
    decreases |a|
  {
    if |a| > 0 {
      Irreflexive(a[1..]);
    }
  }

  lemma {:induction false} Transitive(a: string, b: string, c: string)
    requires Less(a, b) && Less(b, c)
    ensures Less(a, c)
    decreases |a|
  {
    if |a| > 0 && a[0] == b[0] && b[0] == c[0] {
      Transitive(a[1..], b[1..], c[1..]);
    }
  }

  /** Any two distinct strings are ordered one way or the other. */
  lemma {:induction false} Trichotomy(a: string, b: string)
    ensures a == b || Less(a, b) || Less(b, a)
    decreases |a|
  {
    if |a| > 0 && |b| > 0 && a[0] == b[0] {
      Trichotomy(a[1..], b[1..]);
      if a[1..] == b[1..] {
        assert a == [a[0]] + a[1..] && b == [b[0]] + b[1..];
      }
    }
  }

  lemma {:induction false} TrichotomyAll()
    ensures forall a: string, b: string {:trigger Less(a, b)} :: a == b || Less(a, b) || Less(b, a)
  {
    forall a: string, b: string
      ensures a == b || Less(a, b) || Less(b, a)
    {
      Trichotomy(a, b);
    }
  }

  /** `m` is the least element of `s`. */
  predicate IsLeast(m: string, s: set<string>) {
    m in s && forall x :: x in s ==> !Less(x, m)
  }

  /** Every non-empty finite set of strings has a least element. */
  lemma {:induction false} LeastExists(s: set<string>)
    requires s != {}
    ensures exists m :: IsLeast(m, s)
    decreases |s|
  {
    var a :| a in s;
    if s == {a} {
      Irreflexive(a);
      assert IsLeast(a, s);
    } else {
      LeastExists(s - {a});
      var m :| IsLeast(m, s - {a});
      if Less(a, m) {
        forall x | x in s
          ensures !Less(x, a)
        {
          if x == a {
            Irreflexive(a);
          } else if Less(x, a) {
            Transitive(x, a, m);
          }
        }
        assert IsLeast(a, s);
      } else {
        assert IsLeast(m, s);
      }
    }
  }

  /** Strictly increasing: sorted and without repetition. */
  predicate Increasing(r: seq<string>) {
    forall i, j :: 0 <= i < j < |r| ==> Less(r[i], r[j])
  }

  /** The elements of `s` in increasing order. */
  function Enumerate(s: set<string>): (r: seq<string>)
    ensures |r| == |s|
    ensures forall x :: x in r <==> x in s
    ensures Increasing(r)
    decreases |s|
  {
    if s == {} then []
    else
      LeastExists(s);
      TrichotomyAll();
      var m :| IsLeast(m, s);
      var rest := Enumerate(s - {m});
      assert forall x :: x in rest ==> Less(m, x) by {
        forall x | x in rest
          ensures Less(m, x)
        {
          Trichotomy(m, x);
        }
      }
      [m] + rest
  }
}

=== FILE: ranking.dfy ===
/** Ordering of search results (src/FTS.ts, the final sort of `search`).

    `results.sort((a, b) => b.score - a.score)` is a stable sort (ECMAScript
    2019 requires Array.prototype.sort to be stable) by descending score.
    Results with equal scores therefore keep the order they arrived in. */
module Ranking {
  import Lex

  /** One search result: the document id, its text and its combined score. */
  datatype Hit = Hit(id: string, content: string, score: real)

  /** Scores never increase along `r`. */
  predicate Descending(r: seq<Hit>) {
    forall i, j :: 0 <= i < j < |r| ==> r[i].score >= r[j].score
  }

  /** Among equal scores, ids appear in increasing code-point order. */
  predicate TiesById(r: seq<Hit>) {
    forall i, j :: 0 <= i < j < |r| && r[i].score == r[j].score ==> Lex.Less(r[i].id, r[j].id)
  }

  /** Ids strictly increase along `s`. */
  predicate IdsIncreasing(s: seq<Hit>) {
    forall i, j :: 0 <= i < j < |s| ==> Lex.Less(s[i].id, s[j].id)
  }

  /** Inserts `h` after every entry scoring at least as much, so that a later
      entry stays behind earlier ones of equal score. */
  function Insert(h: Hit, r: seq<Hit>): (out: seq<Hit>)
    ensures multiset(out) == multiset(r) + multiset{h}
    decreases |r|
  {
    if r == [] then [h]
    else
      assert r == [r[0]] + r[1..];
      if r[0].score < h.score then [h] + r
      else [r[0]] + Insert(h, r[1..])
  }

  /** Every entry after insertion is `h` or came from `r`. */
  lemma {:induction false} InsertFrom(h: Hit, r: seq<Hit>, x: Hit)
    requires x in Insert(h, r)
    ensures x == h || x in r
  {
    assert x in multiset(Insert(h, r));
  }

  /** The stable descending sort: each entry in turn is inserted into the
      sorted result of the entries before it. */
  function SortByScore(s: seq<Hit>): (r: seq<Hit>)
    ensures multiset(r) == multiset(s)
    ensures Descending(r)
    decreases |s|
  {
    if s == [] then []
    else
      var init := s[..|s| - 1];
      assert s == init + [s[|s| - 1]];
      InsertDescending(s[|s| - 1], SortByScore(init));
      Insert(s[|s| - 1], SortByScore(init))
  }

  lemma {:induction false} InsertDescending(h: Hit, r: seq<Hit>)
    requires Descending(r)
    ensures Descending(Insert(h, r))
    decreases |r|
  {
    if r != [] && r[0].score >= h.score {
      InsertDescending(h, r[1..]);
      var out := Insert(h, r);
      var tail := Insert(h, r[1..]);
      assert out == [r[0]] + tail;
      forall j | 0 < j < |out|
        ensures out[0].score >= out[j].score
      {
        assert out[j] == tail[j - 1];
        InsertFrom(h, r[1..], out[j]);
      }
    }
  }

  /** Inserting an entry whose id follows the ids of all equal-scored entries
      keeps ties in id order. */
  lemma {:induction false} InsertTies(h: Hit, r: seq<Hit>)
    requires Descending(r) && TiesById(r)
    requires forall x :: x in r && x.score == h.score ==> Lex.Less(x.id, h.id)
    ensures TiesById(Insert(h, r))
    decreases |r|
  {
    if r != [] && r[0].score >= h.score {
      InsertTies(h, r[1..]);
      var out := Insert(h, r);
      var tail := Insert(h, r[1..]);
      assert out == [r[0]] + tail;
      forall j | 0 < j < |out| && out[0].score == out[j].score
        ensures Lex.Less(out[0].id, out[j].id)
      {
        assert out[j] == tail[j - 1];
        InsertFrom(h, r[1..], out[j]);
        if out[j] != h {
          var k :| 0 <= k < |r[1..]| && r[1..][k] == out[j];
          assert r[k + 1] == out[j];
        }
      }
    } else if r != [] {
      var out := Insert(h, r);
      forall i, j | 0 <= i < j < |out| && out[i].score == out[j].score
        ensures Lex.Less(out[i].id, out[j].id)
      {
        if i > 0 {
          assert out[i] == r[i - 1] && out[j] == r[j - 1];
        }
      }
    }
  }

  /** The sort neither adds nor drops a hit. */
  lemma {:induction false} SortSameHits(s: seq<Hit>)
    ensures forall h :: h in SortByScore(s) <==> h in s
  {
    var r := SortByScore(s);
    forall h
      ensures h in r <==> h in s
    {
      assert h in r <==> h in multiset(r);
      assert h in s <==> h in multiset(s);
    }
  }

  /** Fed with ids in increasing order, the stable sort breaks score ties by
      id. */
  lemma {:induction false} SortTies(s: seq<Hit>)
    requires IdsIncreasing(s)
    ensures TiesById(SortByScore(s))
    decreases |s|
  {
    if s != [] {
      var n := |s| - 1;
      var init := s[..n];
      SortTies(init);
      var sorted := SortByScore(init);
      assert IdsIncreasing(init);
      forall x | x in sorted && x.score == s[n].score
        ensures Lex.Less(x.id, s[n].id)
      {
        assert x in multiset(init);
        var k :| 0 <= k < n && init[k] == x;
      }
      InsertTies(s[n], sorted);
    }
  }

  /** So the result is ordered by descending score and then by increasing
      id, with no two entries tied on both. */
  lemma {:induction false} SortRanks(s: seq<Hit>)
    requires IdsIncreasing(s)
    ensures forall i, j :: 0 <= i < j < |SortByScore(s)| ==>
              SortByScore(s)[i].score > SortByScore(s)[j].score
              || (SortByScore(s)[i].score == SortByScore(s)[j].score
                  && Lex.Less(SortByScore(s)[i].id, SortByScore(s)[j].id))
  {
    SortTies(s);
  }
}

=== FILE: redis_store.dfy ===
/** The part of Redis the search engine relies on, as a pure state machine.

    The keyspace is one map from key to value; a value is a sorted set
    (member to score) or a string. Only the commands the engine sends are
    modelled: ZADD, ZREM, SET, DEL, GET and ZINTER with the default SUM
    aggregation. Scores are exact reals. */
module RedisStore {
  import opened Wrappers

  datatype Value = ZSet(members: map<string, real>) | Str(text: string)

  type Db = map<string, Value>

  /** The two error replies the modelled commands can give: a command on a
      key of the other type, and ZINTER with no input key. */
  datatype StoreError = WrongType | NoKeys

  datatype Command =
    | ZAdd(key: string, score: real, member: string)
    | ZRem(key: string, member: string)
    | Set(key: string, value: string)
    | Del(key: string)

  /** Redis never keeps an empty sorted set: removing the last member deletes
      the key. */
  predicate WellFormed(db: Db) {
    forall key :: key in db && db[key].ZSet? ==> db[key].members != map[]
  }

  /** The sorted set a command sees at `key`: an absent key reads as the
      empty set, a string is a type error. */
  function ZSetAt(db: Db, key: string): (r: Result<map<string, real>, StoreError>)
    ensures r.Failure? <==> key in db && db[key].Str?
    ensures r.Success? && key in db ==> db[key] == ZSet(r.value)
    ensures r.Success? && key !in db ==> r.value == map[]
  {
    if key !in db then Success(map[])
    else match db[key]
      case ZSet(m) => Success(m)
      case Str(_) => Failure(WrongType)
  }

  /** The members stored at `key`, empty when there is no sorted set there. */
  function Members(db: Db, key: string): map<string, real> {
    if key in db && db[key].ZSet? then db[key].members else map[]
  }

  /** What `key` holds, if anything. */
  function Lookup(db: Db, key: string): Option<Value> {
    if key in db then Some(db[key]) else None
  }

  /** A sorted set as Redis keeps it: an empty one is no key at all. */
  function NonEmpty(m: map<string, real>): Option<Value> {
    if m == map[] then None else Some(ZSet(m))
  }

  /** Two stores that agree on every key are the same store. */
  lemma {:induction false} LookupExt(a: Db, b: Db)
    requires forall k :: Lookup(a, k) == Lookup(b, k)
    ensures a == b
  {
    forall k | k in a
      ensures k in b && a[k] == b[k]
    {
      assert Lookup(a, k) == Lookup(b, k);
    }
    forall k | k in b
      ensures k in a
    {
      assert Lookup(a, k) == Lookup(b, k);
    }
  }

  /** One command of a pipeline. ZADD sets the member's score, replacing an
      earlier one; ZREM drops the member and deletes a set it empties; an
      error reply (ZADD or ZREM on a string) leaves the store as it was, and
      the pipeline carries on after it. */
  function Apply(db: Db, c: Command): (r: Db)
    ensures forall k :: k != c.key ==> Lookup(r, k) == Lookup(db, k)
    ensures c.ZAdd? ==> Lookup(r, c.key)
                        == if ZSetAt(db, c.key).Success? then Some(ZSet(Members(db, c.key)[c.member := c.score]))
                           else Lookup(db, c.key)
    ensures c.ZRem? ==> Lookup(r, c.key)
                        == if c.member in Members(db, c.key) then NonEmpty(Members(db, c.key) - {c.member})
                           else Lookup(db, c.key)
    ensures c.Set? ==> Lookup(r, c.key) == Some(Str(c.value))
    ensures c.Del? ==> Lookup(r, c.key) == None
  {
    match c
    case ZAdd(key, score, member) =>
      (match ZSetAt(db, key)
       case Success(m) => db[key := ZSet(m[member := score])]
       case Failure(_) => db)
    case ZRem(key, member) =>
      (match ZSetAt(db, key)
       case Success(m) =>
         if member !in m then db
         else if m - {member} == map[] then db - {key}
         else db[key := ZSet(m - {member})]
       case Failure(_) => db)
    case Set(key, value) => db[key := Str(value)]
    case Del(key) => db - {key}
  }

  /** Every command keeps the store free of empty sorted sets. */
  lemma {:induction false} ApplyWellFormed(db: Db, c: Command)
    requires WellFormed(db)
    ensures WellFormed(Apply(db, c))
  {
    var r := Apply(db, c);
    forall key | key in r && r[key].ZSet?
      ensures r[key].members != map[]
    {
      assert Lookup(r, key) == Some(r[key]);
      if key == c.key && c.ZAdd? && ZSetAt(db, c.key).Success? {
        assert c.member in r[key].members;
      } else if key != c.key {
        assert Lookup(db, key) == Some(r[key]);
      }
    }
  }

  /** A pipeline: its commands one after the other. */
  function Exec(db: Db, cs: seq<Command>): Db
    decreases |cs|
  {
    if cs == [] then db else Exec(Apply(db, cs[0]), cs[1..])
  }

  lemma {:induction false} ExecAppend(db: Db, a: seq<Command>, b: seq<Command>)
    ensures Exec(db, a + b) == Exec(Exec(db, a), b)
    decreases |a|
  {
    if a == [] {
      assert a + b == b;
    } else {
      assert (a + b)[1..] == a[1..] + b;
      ExecAppend(Apply(db, a[0]), a[1..], b);
    }
  }

  lemma {:induction false} ExecWellFormed(db: Db, cs: seq<Command>)
    requires WellFormed(db)
    ensures WellFormed(Exec(db, cs))
    decreases |cs|
  {
    if cs != [] {
      ApplyWellFormed(db, cs[0]);
      ExecWellFormed(Apply(db, cs[0]), cs[1..]);
    }
  }

  /** GET: the string at `key`, nothing for an absent key, a type error for
      a sorted set. */
  function Get(db: Db, key: string): (r: Result<Option<string>, StoreError>)
    ensures r == Success(None) <==> key !in db
    ensures forall s :: r == Success(Some(s)) <==> key in db && db[key] == Str(s)
    ensures r.Failure? <==> key in db && db[key].ZSet?
  {
    if key !in db then Success(None)
    else match db[key]
      case Str(s) => Success(Some(s))
      case ZSet(_) => Failure(WrongType)
  }

  /* ---------- ZINTER ... WITHSCORES (AGGREGATE SUM) ---------- */

  /** `x` is a member of every set named in `keys`. */
  predicate InAll(db: Db, keys: seq<string>, x: string) {
    forall i :: 0 <= i < |keys| ==> x in Members(db, keys[i])
  }

  /** The sum of `x`'s scores over the sets named in `keys`. */
  function ScoreSum(db: Db, keys: seq<string>, x: string): real
    requires InAll(db, keys, x)
    decreases |keys|
  {
    if keys == [] then 0.0
    else Members(db, keys[0])[x] + ScoreSum(db, keys[1..], x)
  }

  /** No key in `keys` holds a string. */
  predicate AllSets(db: Db, keys: seq<string>) {
    forall i :: 0 <= i < |keys| ==> ZSetAt(db, keys[i]).Success?
  }

  /** The members common to two score maps, with their scores added. */
  function Intersect(a: map<string, real>, b: map<string, real>): (r: map<string, real>)
    ensures forall x :: x in r <==> x in a && x in b
    ensures forall x :: x in r ==> r[x] == a[x] + b[x]
  {
    map x | x in a.Keys * b.Keys :: a[x] + b[x]
  }

  /** The intersection of the non-empty list `keys`, folded from the right. */
  function InterFrom(db: Db, keys: seq<string>): (r: Result<map<string, real>, StoreError>)
    requires keys != []
    ensures r.Success? <==> AllSets(db, keys)
    ensures r.Failure? ==> r.error == WrongType
    ensures r.Success? ==> forall x :: x in r.value <==> InAll(db, keys, x)
    ensures r.Success? ==> forall x :: x in r.value ==> r.value[x] == ScoreSum(db, keys, x)
    decreases |keys|
  {
    var first := ZSetAt(db, keys[0]);
    InAllSplit(db, keys);
    if first.Failure? then Failure(WrongType)
    else if |keys| == 1 then Success(first.value)
    else match InterFrom(db, keys[1..])
      case Failure(e) => Failure(e)
      case Success(rest) => Success(Intersect(first.value, rest))
  }

  /** Membership in all of `keys` is membership in the first set and in all
      of the rest. */
  lemma {:induction false} InAllSplit(db: Db, keys: seq<string>)
    requires keys != []
    ensures forall x :: InAll(db, keys, x) <==> x in Members(db, keys[0]) && InAll(db, keys[1..], x)
    ensures AllSets(db, keys) <==> ZSetAt(db, keys[0]).Success? && AllSets(db, keys[1..])
  {
    forall x
      ensures InAll(db, keys, x) <==> x in Members(db, keys[0]) && InAll(db, keys[1..], x)
    {
      if x in Members(db, keys[0]) && InAll(db, keys[1..], x) {
        forall i | 0 <= i < |keys|
          ensures x in Members(db, keys[i])
        {
          if i > 0 {
            assert keys[i] == keys[1..][i - 1];
          }
        }
      }
      if InAll(db, keys, x) {
        forall i | 0 <= i < |keys| - 1
          ensures x in Members(db, keys[1..][i])
        {
          assert keys[1..][i] == keys[i + 1];
        }
      }
    }
    if ZSetAt(db, keys[0]).Success? && AllSets(db, keys[1..]) {
      forall i | 0 <= i < |keys|
        ensures ZSetAt(db, keys[i]).Success?
      {
        if i > 0 {
          assert keys[i] == keys[1..][i - 1];
        }
      }
    }
  }

  /** ZINTER numkeys key... WITHSCORES, as a score map: the members found in
      every listed set, each scored with the sum of its scores. Zero keys is
      an error reply, and so is a key holding a string. */
  function ZInter(db: Db, keys: seq<string>): (r: Result<map<string, real>, StoreError>)
    ensures keys == [] ==> r == Failure(NoKeys)
    ensures keys != [] ==> (r.Success? <==> AllSets(db, keys))
    ensures r.Success? ==> forall x :: x in r.value <==> InAll(db, keys, x)
    ensures r.Success? ==> forall x :: x in r.value ==> r.value[x] == ScoreSum(db, keys, x)
  {
    if keys == [] then Failure(NoKeys) else InterFrom(db, keys)
  }
}

=== FILE: search_facts.dfy ===
/** What `search` returns: exactly the documents in every query term's word
    set, each with the sum of its weights and its stored text, highest score
    first and ties by id; and how a search sees the documents `add` and
    `remove` write. */
module SearchFacts {
  import opened Wrappers
  import opened Text
  import opened Tokenizer
  import opened RedisStore
  import opened FtsKeys
  import Lex
  import opened Ranking
  import opened Fts
  import opened FtsFacts

  /* ---------- the search after tokenization ---------- */

  /** Being in every word set of `terms`. */
  lemma {:induction false} InAllTerms(db: Db, name: string, terms: seq<string>, x: string)
    ensures InAll(db, KeysOf(name, terms), x) <==> forall t :: t in terms ==> x in Members(db, WordKey(name, t))
  {
    var keys := KeysOf(name, terms);
    if InAll(db, keys, x) {
      forall t | t in terms
        ensures x in Members(db, WordKey(name, t))
      {
        var i :| 0 <= i < |terms| && terms[i] == t;
        assert keys[i] == WordKey(name, t);
      }
    }
  }

  lemma {:induction false} OutcomeOf(db: Db, name: string, keys: seq<string>)
    requires keys != []
    ensures SearchKeys(db, name, keys).Success?
            <==> AllSets(db, keys) && forall x :: InAll(db, keys, x) ==> Get(db, DocKey(name, x)).Success?
  {
    var z := ZInter(db, keys);
    if z.Success? {
      var scores := z.value;
      var ids := Lex.Enumerate(scores.Keys);
      var gets := forall i :: 0 <= i < |ids| ==> Get(db, DocKey(name, ids[i])).Success?;
      var matches := forall x :: InAll(db, keys, x) ==> Get(db, DocKey(name, x)).Success?;
      assert gets <==> matches by {
        if gets {
          forall x | InAll(db, keys, x)
            ensures Get(db, DocKey(name, x)).Success?
          {
            assert x in ids;
          }
        }
      }
      assert Hydrate(db, name, ids, scores).Success? <==> gets;
    }
  }

  /** The hits in reply order, before the sort: one per id of `ids`, in the
      same order. */
  lemma {:induction false} HydratedIds(db: Db, name: string, ids: seq<string>, scores: map<string, real>, hits: seq<Hit>)
    requires forall x :: x in ids ==> x in scores
    requires Hydrate(db, name, ids, scores) == Success(hits)
    ensures forall x :: (exists i :: 0 <= i < |hits| && hits[i].id == x) <==> x in ids
    ensures Lex.Increasing(ids) ==> IdsIncreasing(hits)
  {
    assert forall i :: 0 <= i < |hits| ==> hits[i].id == ids[i];
  }

  /** Each hit before the sort carries its id's score and its text. */
  lemma {:induction false} HydratedValues(db: Db, name: string, ids: seq<string>, scores: map<string, real>, hits: seq<Hit>, i: nat)
    requires forall x :: x in ids ==> x in scores
    requires Hydrate(db, name, ids, scores) == Success(hits)
    requires i < |hits|
    ensures hits[i].id in scores
    ensures hits[i].score == scores[hits[i].id]
    ensures hits[i].content == Content(db, name, hits[i].id)
  {
    assert ids[i] in ids;
  }

  /** After the sort, the hits are still one per scored id. */
  lemma {:induction false} SortedIds(db: Db, name: string, scores: map<string, real>, hits0: seq<Hit>)
    requires Hydrate(db, name, Lex.Enumerate(scores.Keys), scores) == Success(hits0)
    ensures forall x :: (exists h :: h in SortByScore(hits0) && h.id == x) <==> x in scores
  {
    var ids := Lex.Enumerate(scores.Keys);
    var hits := SortByScore(hits0);
    HydratedIds(db, name, ids, scores, hits0);
    SortSameHits(hits0);
    forall x
      ensures (exists h :: h in hits && h.id == x) <==> x in scores
    {
      if x in scores {
        assert x in ids;
        var i :| 0 <= i < |hits0| && hits0[i].id == x;
        assert hits0[i] in hits;
      } else {
        forall h | h in hits
          ensures h.id != x
        {
          var i :| 0 <= i < |hits0| && hits0[i] == h;
        }
      }
    }
  }

  /** After the sort, each hit still carries its id's score and its text. */
  lemma {:induction false} SortedValues(db: Db, name: string, scores: map<string, real>, hits0: seq<Hit>)
    requires Hydrate(db, name, Lex.Enumerate(scores.Keys), scores) == Success(hits0)
    ensures forall h :: h in SortByScore(hits0) ==>
              h.id in scores && h.score == scores[h.id] && h.content == Content(db, name, h.id)
  {
    var ids := Lex.Enumerate(scores.Keys);
    SortSameHits(hits0);
    forall h | h in SortByScore(hits0)
      ensures h.id in scores && h.score == scores[h.id] && h.content == Content(db, name, h.id)
    {
      var i :| 0 <= i < |hits0| && hits0[i] == h;
      HydratedValues(db, name, ids, scores, hits0, i);
    }
  }

  /** After the sort, the hits run by descending score, then increasing id. */
  lemma {:induction false} SortedOrder(db: Db, name: string, scores: map<string, real>, hits0: seq<Hit>)
    requires Hydrate(db, name, Lex.Enumerate(scores.Keys), scores) == Success(hits0)
    ensures var hits := SortByScore(hits0);
            forall i, j :: 0 <= i < j < |hits| ==>
              hits[i].score > hits[j].score
              || (hits[i].score == hits[j].score && Lex.Less(hits[i].id, hits[j].id))
  {
    HydratedIds(db, name, Lex.Enumerate(scores.Keys), scores, hits0);
    SortRanks(hits0);
  }

  /** The hits of a successful ZINTER-GET-sort run over `keys`: exactly the ids
      in every set, each with its summed score and its text, by descending
      score, then increasing id. */
  lemma {:induction false} HitsOf(db: Db, name: string, keys: seq<string>)
    requires SearchKeys(db, name, keys).Success?
    ensures var hits := SearchKeys(db, name, keys).value;
            && (forall x :: (exists h :: h in hits && h.id == x) <==> InAll(db, keys, x))
            && (forall h :: h in hits ==>
                  && InAll(db, keys, h.id)
                  && h.score == ScoreSum(db, keys, h.id)
                  && h.content == Content(db, name, h.id))
            && (forall i, j :: 0 <= i < j < |hits| ==>
                  hits[i].score > hits[j].score
                  || (hits[i].score == hits[j].score && Lex.Less(hits[i].id, hits[j].id)))
  {
    var scores := ZInter(db, keys).value;
    var hits0 := Hydrate(db, name, Lex.Enumerate(scores.Keys), scores).value;
    assert SearchKeys(db, name, keys).value == SortByScore(hits0);
    SortedIds(db, name, scores, hits0);
    SortedValues(db, name, scores, hits0);
    SortedOrder(db, name, scores, hits0);
  }

  lemma {:induction false} SucceedsOn(db: Db, name: string, terms: seq<string>)
    requires Typed(name, db)
    requires terms != []
    ensures SearchKeys(db, name, KeysOf(name, terms)).Success?
  {
    var keys := KeysOf(name, terms);
    forall i | 0 <= i < |keys|
      ensures ZSetAt(db, keys[i]).Success?
    {
      assert keys[i] == WordKey(name, terms[i]);
    }
    OutcomeOf(db, name, keys);
  }

  /** The sum of the weights of `terms`. */
  function WeightSum(tokens: map<string, real>, terms: seq<string>): (r: real)
    requires forall t :: t in terms ==> t in tokens
    ensures terms != [] && (forall t :: t in tokens ==> tokens[t] > 0.0) ==> r > 0.0
    ensures terms == [] ==> r == 0.0
    decreases |terms|
  {
    if terms == [] then 0.0 else tokens[terms[0]] + WeightSum(tokens, terms[1..])
  }

  /** A document holding every term at its weight scores the sum of those
      weights. */
  lemma {:induction false} ScoreOfWeights(db: Db, name: string, id: string, tokens: map<string, real>, terms: seq<string>)
    requires forall t :: t in terms ==>
               && t in tokens
               && id in Members(db, WordKey(name, t))
               && Members(db, WordKey(name, t))[id] == tokens[t]
    ensures InAll(db, KeysOf(name, terms), id)
    ensures ScoreSum(db, KeysOf(name, terms), id) == WeightSum(tokens, terms)
    decreases |terms|
  {
    InAllTerms(db, name, terms, id);
    if terms != [] {
      assert KeysOf(name, terms)[1..] == KeysOf(name, terms[1..]);
      ScoreOfWeights(db, name, id, tokens, terms[1..]);
    }
  }

  /** A stored document in every word set of `terms` is a hit, scored with
      the sum of its weights. */
  lemma {:induction false} FoundAt(db: Db, name: string, id: string, text: string, tokens: map<string, real>, terms: seq<string>)
    requires Typed(name, db)
    requires terms != []
    requires forall t :: t in terms ==>
               && t in tokens
               && id in Members(db, WordKey(name, t))
               && Members(db, WordKey(name, t))[id] == tokens[t]
    requires Lookup(db, DocKey(name, id)) == Some(Str(text))
    ensures SearchKeys(db, name, KeysOf(name, terms)).Success?
    ensures Hit(id, text, WeightSum(tokens, terms)) in SearchKeys(db, name, KeysOf(name, terms)).value
  {
    var keys := KeysOf(name, terms);
    SucceedsOn(db, name, terms);
    HitsOf(db, name, keys);
    ScoreOfWeights(db, name, id, tokens, terms);
    assert Content(db, name, id) == text;
  }

  /* ---------- search ---------- */

  /** A query with terms names at least one word set. */
  lemma {:induction false} QueryKeysNonEmpty(e: Engine, query: string)
    requires Terms(e, query) != map[]
    ensures QueryTerms(e, query) != [] && QueryKeys(e, query) != []
  {
    assert Terms(e, query).Keys != {};
    assert |QueryTerms(e, query)| > 0;
  }

  /** A search succeeds exactly when no query word key holds a string and no
      matching document key holds a sorted set. */
  lemma {:induction false} SearchOutcome(e: Engine, db: Db, query: string)
    requires Terms(e, query) != map[]
    ensures Search(e, db, query).Success?
            <==> AllSets(db, QueryKeys(e, query))
                 && forall x :: InAll(db, QueryKeys(e, query), x) ==> Get(db, DocKey(e.name, x)).Success?
  {
    QueryKeysNonEmpty(e, query);
    OutcomeOf(db, e.name, QueryKeys(e, query));
  }

  /** Searching an index whose keys hold the right types cannot fail, once the
      query has a term. */
  lemma {:induction false} SearchSucceeds(e: Engine, db: Db, query: string)
    requires Typed(e.name, db)
    requires Terms(e, query) != map[]
    ensures Search(e, db, query).Success?
  {
    QueryKeysNonEmpty(e, query);
    SucceedsOn(db, e.name, QueryTerms(e, query));
  }

  /** The hits of a successful search: exactly the ids in every query word
      set; each scored with the sum of its weights there and carrying its
      stored text (or ""); ordered by descending score, then increasing id. */
  lemma {:induction false} SearchHits(e: Engine, db: Db, query: string)
    requires Search(e, db, query).Success?
    ensures var hits := Search(e, db, query).value;
            var keys := QueryKeys(e, query);
            && (forall x :: (exists h :: h in hits && h.id == x) <==> InAll(db, keys, x))
            && (forall h :: h in hits ==>
                  && InAll(db, keys, h.id)
                  && h.score == ScoreSum(db, keys, h.id)
                  && h.content == Content(db, e.name, h.id))
            && (forall i, j :: 0 <= i < j < |hits| ==>
                  hits[i].score > hits[j].score
                  || (hits[i].score == hits[j].score && Lex.Less(hits[i].id, hits[j].id)))
  {
    HitsOf(db, e.name, QueryKeys(e, query));
  }

  /** After `add(id, text)`, a query whose terms all occur in `text` finds the
      document, with its text and the sum of the query terms' weights in it. */
  lemma {:induction false} SearchFindsAdded(e: Engine, db: Db, id: string, text: string, query: string)
    requires Typed(e.name, db)
    requires Terms(e, query) != map[]
    requires forall t :: t in Terms(e, query) ==> t in Terms(e, text)
    ensures Search(e, Add(e, db, id, text), query).Success?
    ensures Hit(id, text, WeightSum(Terms(e, text), QueryTerms(e, query))) in Search(e, Add(e, db, id, text), query).value
    ensures WeightSum(Terms(e, text), QueryTerms(e, query)) > 0.0
  {
    var db1 := Add(e, db, id, text);
    var tokens := Terms(e, text);
    var terms := QueryTerms(e, query);
    QueryKeysNonEmpty(e, query);
    AddKeepsTyped(e, db, id, text);
    forall t | t in terms
      ensures t in tokens && id in Members(db1, WordKey(e.name, t)) && Members(db1, WordKey(e.name, t))[id] == tokens[t]
    {
      AddPostings(e, db, id, text, t);
    }
    assert tokens != map[] by {
      assert terms[0] in tokens;
    }
    AddDocument(e, db, id, text);
    FoundAt(db1, e.name, id, text, tokens, terms);
  }

  /** For a fresh id, `add(id, text)` puts `id` in the word set of `t`
      exactly when `t` is a term of `text`. */
  lemma {:induction false} PostedExactly(e: Engine, db: Db, id: string, text: string, t: string)
    requires Typed(e.name, db) && Fresh(e.name, db, id)
    ensures id in Members(Add(e, db, id, text), WordKey(e.name, t)) <==> t in Terms(e, text)
  {
    if t in Terms(e, text) {
      AddPostings(e, db, id, text, t);
    } else {
      AddLeavesStale(e, db, id, text, t);
    }
  }

  /** For a fresh id, `add(id, text)` makes the document a hit of a query
      exactly when every query term occurs in `text`. */
  lemma {:induction false} SearchFindsAddedOnly(e: Engine, db: Db, id: string, text: string, query: string)
    requires Typed(e.name, db) && Fresh(e.name, db, id)
    requires Terms(e, query) != map[]
    ensures Search(e, Add(e, db, id, text), query).Success?
    ensures (exists h :: h in Search(e, Add(e, db, id, text), query).value && h.id == id)
            <==> Terms(e, query).Keys <= Terms(e, text).Keys
  {
    var db1 := Add(e, db, id, text);
    var terms := QueryTerms(e, query);
    AddKeepsTyped(e, db, id, text);
    SearchSucceeds(e, db1, query);
    HitsOf(db1, e.name, QueryKeys(e, query));
    InAllTerms(db1, e.name, terms, id);
    forall t | t in terms
      ensures id in Members(db1, WordKey(e.name, t)) <==> t in Terms(e, text)
    {
      PostedExactly(e, db, id, text, t);
    }
  }

  /** A document that was never added is no hit. */
  lemma {:induction false} FreshNotFound(e: Engine, db: Db, id: string, query: string)
    requires Fresh(e.name, db, id)
    requires Search(e, db, query).Success?
    ensures forall h :: h in Search(e, db, query).value ==> h.id != id
  {
    SearchHits(e, db, query);
    QueryKeysNonEmpty(e, query);
    var terms := QueryTerms(e, query);
    InAllTerms(db, e.name, terms, id);
    assert terms[0] in terms;
  }

  /** Once a freshly added document is removed again, no search finds it. */
  lemma {:induction false} RemovedNotFound(e: Engine, db: Db, id: string, text: string, query: string)
    requires Typed(e.name, db) && WellFormed(db) && Fresh(e.name, db, id)
    ensures Remove(e, Add(e, db, id, text), id).Success?
    ensures var r := Remove(e, Add(e, db, id, text), id).value;
            Search(e, r, query).Success? ==> forall h :: h in Search(e, r, query).value ==> h.id != id
  {
    RemoveUndoesAdd(e, db, id, text);
    if Search(e, db, query).Success? {
      FreshNotFound(e, db, id, query);
    }
  }
}

=== FILE: text.dfy ===
/** Character classes the tokenizer works with, and the host's Unicode
    services it depends on.

    Canonical decomposition (NFD) and lower-casing come from the JavaScript
    runtime, not from the repository, so they are parameters (`TextLib`).
    `Latin1` is one concrete instance covering ASCII and the Latin-1
    Supplement letters. */
module Text {

  /** A code point of the Combining Diacritical Marks block, U+0300 to U+036F,
      the range the tokenizer deletes after decomposition. */
  predicate IsCombiningMark(c: char) {
    '\U{0300}' <= c <= '\U{036F}'
  }

  /** The punctuation and symbol characters the tokenizer replaces by a space:
      . , ; : " ' \ / ! @ # $ % ? * ( ) - = + [ ] { } _ */
  predicate IsPunctuation(c: char) {
    || c == '.' || c == ',' || c == ';' || c == ':' || c == '"' || c == '\'' || c == '\\'
    || c == '/' || c == '!' || c == '@' || c == '#' || c == '$' || c == '%' || c == '?'
    || c == '*' || c == '(' || c == ')' || c == '-' || c == '=' || c == '+' || c == '['
    || c == ']' || c == '{' || c == '}' || c == '_'
  }

  /** The ECMAScript `\s` class: WhiteSpace and LineTerminator code points. */
  predicate IsSpace(c: char) {
    c == '\t' || c == '\n' || c == '\U{000B}' || c == '\U{000C}' || c == '\r' || c == ' '
    || c == '\U{00A0}' || c == '\U{1680}' || ('\U{2000}' <= c <= '\U{200A}')
    || c == '\U{2028}' || c == '\U{2029}' || c == '\U{202F}' || c == '\U{205F}'
    || c == '\U{3000}' || c == '\U{FEFF}'
  }

  /** A character that ends a word: whitespace or one of the replaced symbols. */
  predicate IsSeparator(c: char) {
    IsSpace(c) || IsPunctuation(c)
  }

  /** A character that may appear inside an unstemmed term. */
  predicate IsWordChar(c: char) {
    !IsSeparator(c) && !IsCombiningMark(c)
  }

  /** The runtime services the tokenizer calls: the canonical decomposition of
      one code point (`String.prototype.normalize("NFD")` applied per code
      point) and the lower-case mapping of `String.prototype.toLowerCase`. */
  datatype TextLib = TextLib(decompose: char -> string, lower: char -> char)

  /** What the model assumes of a runtime, all of which Unicode guarantees:
      lower-casing is idempotent and maps word characters to word characters,
      and the decomposition of a separator consists of separators. */
  ghost predicate Sane(lib: TextLib) {
    && (forall c {:trigger lib.lower(lib.lower(c))} :: lib.lower(lib.lower(c)) == lib.lower(c))
    && (forall c {:trigger lib.lower(c)} :: IsWordChar(c) ==> IsWordChar(lib.lower(c)))
    && (forall c, i {:trigger lib.decompose(c)[i]} ::
          IsSeparator(c) && 0 <= i < |lib.decompose(c)| ==> IsSeparator(lib.decompose(c)[i]))
  }

  /** Base letters of U+00C0..U+00DD; '-' where the code point has no
      canonical decomposition (Æ, Ð, ×, Ø). */
  const Latin1Bases: string := "AAAAAA-CEEEEIIII-NOOOOO--UUUUY"

  /** The combining mark of each decomposition in `Latin1Bases`. */
  const Latin1Marks: seq<char> := [
    '\U{0300}', '\U{0301}', '\U{0302}', '\U{0303}', '\U{0308}', '\U{030A}', '-',
    '\U{0327}', '\U{0300}', '\U{0301}', '\U{0302}', '\U{0308}', '\U{0300}', '\U{0301}',
    '\U{0302}', '\U{0308}', '-', '\U{0303}', '\U{0300}', '\U{0301}', '\U{0302}',
    '\U{0303}', '\U{0308}', '-', '-', '\U{0300}', '\U{0301}', '\U{0302}', '\U{0308}',
    '\U{0301}']

  /** Canonical decomposition restricted to the Latin-1 Supplement letters. */
  function Latin1Decompose(c: char): (r: string)
    ensures |r| == 1 || |r| == 2
    ensures !IsCombiningMark(c) ==> !IsCombiningMark(r[0])
    ensures |r| == 1 ==> r[0] == c
  {
    if '\U{00C0}' <= c <= '\U{00DD}' && Latin1Bases[c as int - 0xC0] != '-' then
      [Latin1Bases[c as int - 0xC0], Latin1Marks[c as int - 0xC0]]
    else if '\U{00E0}' <= c <= '\U{00FD}' && Latin1Bases[c as int - 0xE0] != '-' then
      [(Latin1Bases[c as int - 0xE0] as int + 0x20) as char, Latin1Marks[c as int - 0xE0]]
    else if c == '\U{00FF}' then
      ['y', '\U{0308}']
    else
      [c]
  }

  /** Lower-casing restricted to ASCII and the Latin-1 Supplement capitals. */
  function Latin1Lower(c: char): (r: char)
    ensures IsWordChar(c) ==> IsWordChar(r)
    ensures r == c || 'a' <= r <= 'z' || ('\U{00E0}' <= r <= '\U{00FE}' && r != '\U{00F7}')
  {
    if 'A' <= c <= 'Z' || ('\U{00C0}' <= c <= '\U{00DE}' && c != '\U{00D7}') then
      (c as int + 0x20) as char
    else
      c
  }

  const Latin1: TextLib := TextLib(Latin1Decompose, Latin1Lower)

  lemma {:induction false} Latin1LowerIdempotent(c: char)
    ensures Latin1Lower(Latin1Lower(c)) == Latin1Lower(c)
  {
  }

  lemma {:induction false} Latin1SeparatorsUndecomposed(c: char)
    requires IsSeparator(c)
    ensures Latin1Decompose(c) == [c]
  {
    assert !('\U{00C0}' <= c <= '\U{00FF}');
  }

  lemma {:induction false} Latin1IsSane()
    ensures Sane(Latin1)
  {
    forall c
      ensures Latin1Lower(Latin1Lower(c)) == Latin1Lower(c)
    {
      Latin1LowerIdempotent(c);
    }
    forall c | IsSeparator(c)
      ensures Latin1Decompose(c) == [c]
    {
      Latin1SeparatorsUndecomposed(c);
    }
  }
}

=== FILE: tokenize.dfy ===
/** The tokenizer of src/tokenize.ts: text in, a map from term to weight out.

    The steps, in the order the source applies them: canonical decomposition,
    deletion of combining marks, punctuation to spaces, split on runs of
    whitespace, lower-casing, dropping empty tokens and stopwords, stemming,
    and finally weighting every occurrence by 1/(n+1) where n is the number of
    words that survived. Weights are exact reals. */
module Tokenizer {
  import opened Wrappers
  import opened Text

  /* ---------- Counting and summing ---------- */

  /** The number of occurrences of `t` in `ws`. */
  function Count(t: string, ws: seq<string>): (k: nat)
    ensures k > 0 ==> t in ws
    ensures t in ws ==> k > 0
  {
    if ws == [] then 0
    else (if ws[0] == t then 1 else 0) + Count(t, ws[1..])
  }

  /** Some key of a non-empty map, fixed once and for all so that `MapSum`
      and the lemmas about it make the same choice. */
  ghost function Pick(m: map<string, real>): (k: string)
    requires m != map[]
    ensures k in m
  {
    var k :| k in m; k
  }

  lemma {:induction false} RemoveShrinks(m: map<string, real>, k: string)
    requires k in m
    ensures |m - {k}| == |m| - 1
  {
    assert (m - {k}).Keys == m.Keys - {k};
  }

  /** The sum of the values of a map. */
  ghost function MapSum(m: map<string, real>): real
    decreases |m|
  {
    if m == map[] then 0.0
    else
      var k := Pick(m);
      RemoveShrinks(m, k);
      m[k] + MapSum(m - {k})
  }

  /** The sum does not depend on which key is taken out first. */
  lemma {:induction false} MapSumRemove(m: map<string, real>, k: string)
    requires k in m
    ensures MapSum(m) == m[k] + MapSum(m - {k})
    decreases |m|
  {
    var j := Pick(m);
    if j != k {
      RemoveShrinks(m, j);
      RemoveShrinks(m, k);
      MapSumRemove(m - {j}, k);
      MapSumRemove(m - {k}, j);
      assert m - {j} - {k} == m - {k} - {j};
    }
  }

  /** Setting one entry changes the sum by the difference of the values. */
  lemma {:induction false} MapSumUpdate(m: map<string, real>, k: string, v: real)
    ensures MapSum(m[k := v]) == MapSum(m) - (if k in m then m[k] else 0.0) + v
  {
    MapSumRemove(m[k := v], k);
    assert m[k := v] - {k} == m - {k};
    if k in m {
      MapSumRemove(m, k);
    } else {
      assert m - {k} == m;
    }
  }

  /* ---------- Step 1: decomposition and mark deletion ---------- */

  /** `normalize("NFD")`: every code point replaced by its decomposition. A
      text already in decomposed form comes back unchanged. */
  function Normalize(lib: TextLib, s: string): (r: string)
    ensures |s| == 1 ==> r == lib.decompose(s[0])
    ensures (forall i :: 0 <= i < |s| ==> lib.decompose(s[i]) == [s[i]]) ==> r == s
    decreases |s|
  {
    if s == [] then []
    else lib.decompose(s[0]) + Normalize(lib, s[1..])
  }

  /** Decomposition works code point by code point: on a concatenation it is
      the concatenation of the parts. */
  lemma {:induction false} NormalizeAppend(lib: TextLib, a: string, b: string)
    ensures Normalize(lib, a + b) == Normalize(lib, a) + Normalize(lib, b)
    decreases |a|
  {
    if a == [] {
      assert a + b == b;
    } else {
      assert (a + b)[0] == a[0];
      assert (a + b)[1..] == a[1..] + b;
      NormalizeAppend(lib, a[1..], b);
    }
  }

  /** Under a sane runtime, decomposing separators yields only separators. */
  lemma {:induction false} NormalizeKeepsSeparators(lib: TextLib, s: string)
    requires Sane(lib)
    requires forall i :: 0 <= i < |s| ==> IsSeparator(s[i])
    ensures forall j :: 0 <= j < |Normalize(lib, s)| ==> IsSeparator(Normalize(lib, s)[j])
    decreases |s|
  {
    if s != [] {
      NormalizeKeepsSeparators(lib, s[1..]);
      var d := lib.decompose(s[0]);
      var r := Normalize(lib, s);
      forall j | 0 <= j < |r|
        ensures IsSeparator(r[j])
      {
        if j < |d| {
          assert r[j] == d[j];
        } else {
          assert r[j] == Normalize(lib, s[1..])[j - |d|];
        }
      }
    }
  }

  /** Deletes every code point in U+0300..U+036F. */
  function StripMarks(s: string): (r: string)
    ensures forall j :: 0 <= j < |r| ==> !IsCombiningMark(r[j])
    ensures forall c :: c in r ==> c in s
    ensures (forall i :: 0 <= i < |s| ==> !IsCombiningMark(s[i])) ==> r == s
    ensures |s| == 1 && IsCombiningMark(s[0]) ==> r == []
  {
    if s == [] then []
    else if IsCombiningMark(s[0]) then StripMarks(s[1..])
    else [s[0]] + StripMarks(s[1..])
  }

  /** Mark deletion works character by character: on a concatenation it is
      the concatenation of the parts. With the one-character cases above this
      makes `StripMarks` exactly the filter that keeps the non-marks. */
  lemma {:induction false} StripMarksAppend(a: string, b: string)
    ensures StripMarks(a + b) == StripMarks(a) + StripMarks(b)
    decreases |a|
  {
    if a == [] {
      assert a + b == b;
    } else {
      assert (a + b)[0] == a[0];
      assert (a + b)[1..] == a[1..] + b;
      StripMarksAppend(a[1..], b);
    }
  }

  /* ---------- Step 2: punctuation to spaces ---------- */

  function ReplacePunctuation(s: string): (r: string)
    ensures |r| == |s|
    ensures forall j :: 0 <= j < |r| ==> !IsPunctuation(r[j])
    ensures forall j :: 0 <= j < |r| && !IsPunctuation(s[j]) ==> r[j] == s[j]
    ensures forall j :: 0 <= j < |r| && IsPunctuation(s[j]) ==> IsSpace(r[j])
    ensures forall j :: 0 <= j < |r| && IsPunctuation(s[j]) ==> r[j] == ' '
  {
    seq(|s|, i requires 0 <= i < |s| => if IsPunctuation(s[i]) then ' ' else s[i])
  }

  /* ---------- Step 3: split on runs of whitespace ---------- */

  /** The characters of `s` that are not whitespace, in order. */
  function NonSpace(s: string): string {
    if s == [] then []
    else (if IsSpace(s[0]) then [] else [s[0]]) + NonSpace(s[1..])
  }

  lemma {:induction false} NonSpaceAppend(a: string, b: string)
    ensures NonSpace(a + b) == NonSpace(a) + NonSpace(b)
    decreases |a|
  {
    if a != [] {
      assert (a + b)[0] == a[0];
      assert (a + b)[1..] == a[1..] + b;
      NonSpaceAppend(a[1..], b);
    } else {
      assert a + b == b;
    }
  }

  lemma {:induction false} NonSpaceOfWord(s: string)
    requires forall i :: 0 <= i < |s| ==> !IsSpace(s[i])
    ensures NonSpace(s) == s
    decreases |s|
  {
    if s != [] {
      NonSpaceOfWord(s[1..]);
    }
  }

  lemma {:induction false} NonSpaceOfBlank(s: string)
    requires forall i :: 0 <= i < |s| ==> IsSpace(s[i])
    ensures NonSpace(s) == []
    decreases |s|
  {
    if s != [] {
      NonSpaceOfBlank(s[1..]);
    }
  }

  /** The pieces of a split joined back together. */
  function Concat(ps: seq<string>): string {
    if ps == [] then [] else ps[0] + Concat(ps[1..])
  }

  /** The end of the run starting at `from` of characters that are
      whitespace (when `space`) or are not (when not `space`). */
  function RunEnd(s: string, from: nat, space: bool): (k: nat)
    requires from <= |s|
    ensures from <= k <= |s|
    ensures forall i :: from <= i < k ==> IsSpace(s[i]) == space
    ensures k < |s| ==> IsSpace(s[k]) != space
    decreases |s| - from
  {
    if from == |s| || IsSpace(s[from]) != space then from
    else RunEnd(s, from + 1, space)
  }

  /** Joining the pieces of one split step loses exactly the whitespace. */
  lemma {:induction false} SplitStepConcat(s: string, k: nat, j: nat, tail: seq<string>)
    requires k <= j <= |s|
    requires forall i :: 0 <= i < k ==> !IsSpace(s[i])
    requires forall i :: k <= i < j ==> IsSpace(s[i])
    requires Concat(tail) == NonSpace(s[j..])
    ensures Concat([s[..k]] + tail) == NonSpace(s)
  {
    assert s == s[..k] + (s[k..j] + s[j..]);
    NonSpaceAppend(s[..k], s[k..j] + s[j..]);
    NonSpaceAppend(s[k..j], s[j..]);
    NonSpaceOfWord(s[..k]);
    NonSpaceOfBlank(s[k..j]);
    assert ([s[..k]] + tail)[1..] == tail;
  }

  /** Every piece consists of non-space characters taken from `s`. */
  predicate PiecesOf(s: string, r: seq<string>) {
    forall i, c :: 0 <= i < |r| && c in r[i] ==> c in s && !IsSpace(c)
  }

  /** The pieces of one split step hold only non-space characters of `s`. */
  lemma {:induction false} SplitStepChars(s: string, k: nat, j: nat, tail: seq<string>)
    requires k <= j <= |s|
    requires forall i :: 0 <= i < k ==> !IsSpace(s[i])
    requires PiecesOf(s[j..], tail)
    ensures PiecesOf(s, [s[..k]] + tail)
  {
    var r := [s[..k]] + tail;
    assert s == s[..k] + s[k..];
    assert s == s[..j] + s[j..];
    forall i, c | 0 <= i < |r| && c in r[i]
      ensures c in s && !IsSpace(c)
    {
      if i != 0 {
        assert r[i] == tail[i - 1];
      }
    }
  }

  /** `split(/\s+/)`: the text between maximal runs of whitespace, including
      the empty piece before a leading run and after a trailing one. */
  function Split(s: string): (r: seq<string>)
    ensures |r| >= 1
    ensures PiecesOf(s, r)
    ensures Concat(r) == NonSpace(s)
    decreases |s|
  {
    var k := RunEnd(s, 0, false);
    if k == |s| then
      SplitStepChars(s, k, k, []);
      assert s[..k] == s;
      assert [s[..k]] + [] == [s];
      NonSpaceOfWord(s);
      [s]
    else
      var j := RunEnd(s, k, true);
      var tail := Split(s[j..]);
      SplitStepConcat(s, k, j, tail);
      SplitStepChars(s, k, j, tail);
      [s[..k]] + tail
  }

  /** A piece of a split: no whitespace in it. */
  predicate SpaceFree(p: string) {
    forall i :: 0 <= i < |p| ==> !IsSpace(p[i])
  }

  /** A separator of a split: a non-empty run of whitespace. */
  predicate Blank(w: string) {
    w != [] && forall i :: 0 <= i < |w| ==> IsSpace(w[i])
  }

  /** `s` is the pieces `r` joined by non-empty runs of whitespace. */
  ghost predicate JoinedBy(s: string, r: seq<string>)
    decreases |r|
  {
    && |r| >= 1
    && if |r| == 1 then s == r[0]
       else
         && |r[0]| < |s| && s[..|r[0]|] == r[0]
         && exists j :: |r[0]| < j <= |s| && Blank(s[|r[0]|..j]) && JoinedBy(s[j..], r[1..])
  }

  /** The pieces are the maximal whitespace-free runs: whitespace-free, and
      empty only at the two ends. */
  predicate MaximalPieces(r: seq<string>) {
    && (forall i :: 0 <= i < |r| ==> SpaceFree(r[i]))
    && (forall i :: 0 < i < |r| - 1 ==> r[i] != [])
  }

  /** One step of `Split`, unfolded. */
  lemma {:induction false} SplitCons(s: string)
    requires RunEnd(s, 0, false) < |s|
    ensures var k := RunEnd(s, 0, false);
            var j := RunEnd(s, k, true);
            k < j && Split(s) == [s[..k]] + Split(s[j..])
  {
  }

  /** Putting a piece and a whitespace run in front of a joined string. */
  lemma {:induction false} JoinedCons(s: string, k: nat, j: nat, tail: seq<string>)
    requires k < j <= |s| && Blank(s[k..j]) && JoinedBy(s[j..], tail)
    ensures JoinedBy(s, [s[..k]] + tail)
  {
    var r := [s[..k]] + tail;
    assert r[0] == s[..k] && r[1..] == tail;
  }

  /** Putting a whitespace-free piece in front of maximal pieces whose first
      piece is non-empty (unless it is also the last). */
  lemma {:induction false} MaximalCons(p: string, tail: seq<string>)
    requires SpaceFree(p) && MaximalPieces(tail)
    requires |tail| >= 2 ==> tail[0] != []
    ensures MaximalPieces([p] + tail)
  {
    var r := [p] + tail;
    assert forall i :: 1 <= i < |r| ==> r[i] == tail[i - 1];
  }

  /** One step of the shape proof: a maximal first piece and a maximal
      whitespace run in front of a well-cut rest. */
  lemma {:induction false} ShapeStep(s: string, k: nat, j: nat, tail: seq<string>)
    requires k < j <= |s| && k == RunEnd(s, 0, false) && j == RunEnd(s, k, true)
    requires JoinedBy(s[j..], tail) && MaximalPieces(tail)
    requires |s[j..]| > 0 && !IsSpace(s[j..][0]) ==> tail[0] != []
    ensures JoinedBy(s, [s[..k]] + tail) && MaximalPieces([s[..k]] + tail)
    ensures |s| > 0 && !IsSpace(s[0]) ==> s[..k] != []
  {
    assert Blank(s[k..j]) by {
      assert forall i :: 0 <= i < j - k ==> s[k..j][i] == s[k + i];
    }
    JoinedCons(s, k, j, tail);
    if j < |s| {
      assert s[j..][0] == s[j];
    }
    assert SpaceFree(s[..k]) by {
      assert forall i :: 0 <= i < k ==> s[..k][i] == s[i];
    }
    MaximalCons(s[..k], tail);
  }

  /** `Split(s)` cuts `s` at every maximal run of whitespace. */
  lemma {:induction false} SplitShape(s: string)
    ensures JoinedBy(s, Split(s)) && MaximalPieces(Split(s))
    ensures |s| > 0 && !IsSpace(s[0]) ==> Split(s)[0] != []
    decreases |s|
  {
    var k := RunEnd(s, 0, false);
    if k < |s| {
      SplitCons(s);
      var j := RunEnd(s, k, true);
      SplitShape(s[j..]);
      ShapeStep(s, k, j, Split(s[j..]));
    } else {
      assert Split(s) == [s];
      assert SpaceFree(s);
    }
  }

  /** A run is determined by where it stops. */
  lemma {:induction false} RunEndAt(s: string, from: nat, space: bool, k: nat)
    requires from <= k <= |s|
    requires forall i :: from <= i < k ==> IsSpace(s[i]) == space
    requires k < |s| ==> IsSpace(s[k]) != space
    ensures RunEnd(s, from, space) == k
  {
  }

  /** The first step of a cut into maximal pieces is the first step of the
      split: the first piece ends where the first whitespace run starts, and
      that run ends where the second piece starts. */
  lemma {:induction false} FirstCut(s: string, r: seq<string>, j: nat)
    requires |r| >= 2 && MaximalPieces(r)
    requires |r[0]| < j <= |s| && s[..|r[0]|] == r[0] && Blank(s[|r[0]|..j])
    requires JoinedBy(s[j..], r[1..])
    ensures RunEnd(s, 0, false) == |r[0]|
    ensures RunEnd(s, |r[0]|, true) == j
  {
    var m := |r[0]|;
    assert SpaceFree(r[0]);
    assert forall i :: 0 <= i < m ==> s[i] == r[0][i];
    assert s[m] == s[m..j][0];
    RunEndAt(s, 0, false, m);
    assert forall i :: m <= i < j ==> s[i] == s[m..j][i - m];
    if j < |s| {
      var u := r[1];
      assert SpaceFree(u);
      if |r| == 2 {
        assert s[j..] == u;
      } else {
        assert u != [];
        assert s[j..][..|u|] == u;
      }
      assert s[j] == u[0];
    }
    RunEndAt(s, m, true, j);
  }

  /** Dropping the first piece keeps the pieces maximal. */
  lemma {:induction false} MaximalRest(r: seq<string>)
    requires |r| >= 1 && MaximalPieces(r)
    ensures MaximalPieces(r[1..])
  {
    assert forall i :: 0 <= i < |r| - 1 ==> r[1..][i] == r[i + 1];
  }

  /** Conversely, the split is the only way to cut `s` into maximal pieces. */
  lemma {:induction false} SplitUnique(s: string, r: seq<string>)
    requires JoinedBy(s, r) && MaximalPieces(r)
    ensures r == Split(s)
    decreases |r|
  {
    if |r| == 1 {
      assert SpaceFree(r[0]);
      RunEndAt(s, 0, false, |s|);
    } else {
      var m := |r[0]|;
      var j :| m < j <= |s| && Blank(s[m..j]) && JoinedBy(s[j..], r[1..]);
      FirstCut(s, r, j);
      MaximalRest(r);
      SplitUnique(s[j..], r[1..]);
      SplitCons(s);
      assert r == [r[0]] + r[1..];
    }
  }

  /** The split of `s` is exactly its cut into maximal whitespace-free
      pieces. */
  lemma {:induction false} SplitCharacterized(s: string, r: seq<string>)
    ensures r == Split(s) <==> JoinedBy(s, r) && MaximalPieces(r)
  {
    SplitShape(s);
    if JoinedBy(s, r) && MaximalPieces(r) {
      SplitUnique(s, r);
    }
  }

  /* ---------- Step 4: lower-casing ---------- */

  function Lower(lib: TextLib, t: string): (r: string)
    ensures |r| == |t|
    ensures forall j :: 0 <= j < |t| ==> r[j] == lib.lower(t[j])
  {
    seq(|t|, j requires 0 <= j < |t| => lib.lower(t[j]))
  }

  function LowerAll(lib: TextLib, ts: seq<string>): (r: seq<string>)
    ensures |r| == |ts|
    ensures forall i :: 0 <= i < |ts| ==> r[i] == Lower(lib, ts[i])
  {
    seq(|ts|, i requires 0 <= i < |ts| => Lower(lib, ts[i]))
  }

  /** Under a sane runtime, lower-casing a lower-cased token changes nothing. */
  lemma {:induction false} LowerIdempotent(lib: TextLib, t: string)
    requires Sane(lib)
    ensures Lower(lib, Lower(lib, t)) == Lower(lib, t)
  {
    var r := Lower(lib, t);
    assert forall j :: 0 <= j < |r| ==> lib.lower(r[j]) == r[j];
  }

  /** The same for a list of tokens. */
  lemma {:induction false} LowerAllIdempotent(lib: TextLib, ts: seq<string>)
    requires Sane(lib)
    ensures LowerAll(lib, LowerAll(lib, ts)) == LowerAll(lib, ts)
  {
    var r := LowerAll(lib, ts);
    forall i | 0 <= i < |r|
      ensures Lower(lib, r[i]) == r[i]
    {
      LowerIdempotent(lib, ts[i]);
    }
  }

  /** The lower-cased tokens of `text`, before any filtering. */
  function Tokens(lib: TextLib, text: string): seq<string> {
    LowerAll(lib, Split(ReplacePunctuation(StripMarks(Normalize(lib, text)))))
  }

  /* ---------- Step 5: dropping empty tokens and stopwords ---------- */

  /** `filter((s) => s.length > 0 && !stopwords.includes(s))`. */
  function DropStopwords(ts: seq<string>, stopwords: seq<string>): (r: seq<string>)
    ensures forall i :: 0 <= i < |r| ==> |r[i]| > 0 && r[i] !in stopwords
    ensures forall t :: Count(t, r) == if |t| > 0 && t !in stopwords then Count(t, ts) else 0
    ensures forall t :: t in r ==> t in ts
  {
    if ts == [] then []
    else if |ts[0]| > 0 && ts[0] !in stopwords then [ts[0]] + DropStopwords(ts[1..], stopwords)
    else DropStopwords(ts[1..], stopwords)
  }

  /** The words that survive filtering, before stemming. */
  function Survivors(lib: TextLib, text: string, stopwords: seq<string>): seq<string> {
    DropStopwords(Tokens(lib, text), stopwords)
  }

  /* ---------- Step 6: stemming ---------- */

  /** `map(stemmer)`: each word replaced by its stem. */
  function StemAll(ws: seq<string>, stem: string -> string): (r: seq<string>)
    ensures |r| == |ws|
    ensures forall i :: 0 <= i < |ws| ==> r[i] == stem(ws[i])
  {
    if ws == [] then [] else [stem(ws[0])] + StemAll(ws[1..], stem)
  }

  /** The words stemmed when a stemmer is given, unchanged otherwise. */
  function Stem(ws: seq<string>, stemmer: Option<string -> string>): (r: seq<string>)
    ensures |r| == |ws|
    ensures stemmer.None? ==> r == ws
    ensures stemmer.Some? ==> forall i :: 0 <= i < |ws| ==> r[i] == stemmer.value(ws[i])
  {
    match stemmer
    case None => ws
    case Some(f) => StemAll(ws, f)
  }

  /** The words that are weighted: the survivors, stemmed when a stemmer is given. */
  function Words(lib: TextLib, text: string, stopwords: seq<string>, stemmer: Option<string -> string>): seq<string> {
    Stem(Survivors(lib, text, stopwords), stemmer)
  }

  /* ---------- Weighting ---------- */

  /** The `reduce` of the source: each occurrence adds `fraction` to its word's
      entry, starting the entry at `fraction` when it is missing. */
  function Tally(words: seq<string>, fraction: real, acc: map<string, real>): map<string, real> {
    if words == [] then acc
    else
      var w := words[0];
      Tally(words[1..], fraction, acc[w := if w in acc then acc[w] + fraction else fraction])
  }

  /** The tally has an entry exactly for every word and every earlier entry. */
  lemma {:induction false} TallyKeys(words: seq<string>, fraction: real, acc: map<string, real>, t: string)
    ensures t in Tally(words, fraction, acc) <==> t in acc || t in words
    decreases |words|
  {
    if words != [] {
      var w := words[0];
      TallyKeys(words[1..], fraction, acc[w := if w in acc then acc[w] + fraction else fraction], t);
      assert t in words <==> t == w || t in words[1..];
    }
  }

  /** `k` copies of `f` added together. */
  function Repeat(k: nat, f: real): real {
    if k == 0 then 0.0 else f + Repeat(k - 1, f)
  }

  /** k copies of 1/d make k/d. */
  lemma {:induction false} RepeatFraction(k: nat, d: nat)
    requires d > 0
    ensures Repeat(k, 1.0 / d as real) == k as real / d as real
  {
    if k > 0 {
      RepeatFraction(k - 1, d);
    }
  }

  lemma {:induction false} PositiveRatio(k: nat, d: nat)
    requires k > 0 && d > 0
    ensures k as real / d as real > 0.0
  {
  }

  /** The tally adds `fraction` to an entry once per occurrence of its word. */
  lemma {:induction false} TallyValue(words: seq<string>, fraction: real, acc: map<string, real>, t: string)
    requires t in Tally(words, fraction, acc)
    ensures Tally(words, fraction, acc)[t] == (if t in acc then acc[t] else 0.0) + Repeat(Count(t, words), fraction)
    decreases |words|
  {
    if words != [] {
      var w := words[0];
      TallyValue(words[1..], fraction, acc[w := if w in acc then acc[w] + fraction else fraction], t);
    }
  }

  /** Every occurrence adds `fraction` to the sum of the tally. */
  lemma {:induction false} TallySum(words: seq<string>, fraction: real, acc: map<string, real>)
    ensures MapSum(Tally(words, fraction, acc)) == MapSum(acc) + Repeat(|words|, fraction)
    decreases |words|
  {
    if words != [] {
      var w := words[0];
      var acc' := acc[w := if w in acc then acc[w] + fraction else fraction];
      MapSumUpdate(acc, w, if w in acc then acc[w] + fraction else fraction);
      TallySum(words[1..], fraction, acc');
    }
  }

  /** The weight of a term that occurs k times among n words. */
  function Share(k: nat, n: nat): real {
    k as real / (n + 1) as real
  }

  /** The weighting of a word list with n entries: every occurrence is worth
      1/(n+1). */
  function Weigh(words: seq<string>): (r: map<string, real>)
    ensures forall t :: t in r <==> t in words
    ensures forall t :: t in r ==> r[t] == Share(Count(t, words), |words|)
    ensures forall t :: t in r ==> r[t] > 0.0
    ensures r == map[] <==> words == []
  {
    var r := Tally(words, 1.0 / (|words| + 1) as real, map[]);
    forall t
      ensures t in r <==> t in words
      ensures t in r ==> r[t] == Share(Count(t, words), |words|) > 0.0
    {
      WeighEntry(words, t);
    }
    assert words != [] ==> words[0] in r;
    r
  }

  lemma {:induction false} WeighEntry(words: seq<string>, t: string)
    ensures var r := Tally(words, 1.0 / (|words| + 1) as real, map[]);
            && (t in r <==> t in words)
            && (t in r ==> r[t] == Share(Count(t, words), |words|) > 0.0)
  {
    var fraction := 1.0 / (|words| + 1) as real;
    TallyKeys(words, fraction, map[], t);
    if t in Tally(words, fraction, map[]) {
      TallyValue(words, fraction, map[], t);
      RepeatFraction(Count(t, words), |words| + 1);
      PositiveRatio(Count(t, words), |words| + 1);
    }
  }

  /** `tokenize(str, stopwords, stemmer)`. */
  function Tokenize(lib: TextLib, text: string, stopwords: seq<string>, stemmer: Option<string -> string>): (r: map<string, real>)
    ensures forall t :: t in r <==> t in Words(lib, text, stopwords, stemmer)
    ensures forall t :: t in r ==>
              r[t] == Share(Count(t, Words(lib, text, stopwords, stemmer)), |Words(lib, text, stopwords, stemmer)|)
    ensures forall t :: t in r ==> r[t] > 0.0
    ensures r == map[] <==> Survivors(lib, text, stopwords) == []
  {
    Weigh(Words(lib, text, stopwords, stemmer))
  }
}

=== FILE: tokenizer_facts.dfy ===
/** What tokenize promises its callers: how the weights add up, which inputs
    give nothing, what a term can contain, and how stemming merges words.

    Each property is first proved about one step of the pipeline and then
    lifted to `Tokenize`. */
module TokenizerFacts {
  import opened Wrappers
  import opened Text
  import opened Tokenizer

  /* ---------- Weights ---------- */

  lemma {:induction false} WeighSum(words: seq<string>)
    ensures MapSum(Weigh(words)) == |words| as real / (|words| + 1) as real
  {
    var n := |words|;
    TallySum(words, 1.0 / (n + 1) as real, map[]);
    RepeatFraction(n, n + 1);
    assert MapSum(map[]) == 0.0;
  }

  /** The weights of n surviving words add up to n/(n+1), which is below 1. */
  lemma {:induction false} WeightsSum(lib: TextLib, text: string, stopwords: seq<string>, stemmer: Option<string -> string>)
    ensures var n := |Survivors(lib, text, stopwords)|;
            && MapSum(Tokenize(lib, text, stopwords, stemmer)) == n as real / (n + 1) as real
            && MapSum(Tokenize(lib, text, stopwords, stemmer)) < 1.0
  {
    var n := |Survivors(lib, text, stopwords)|;
    assert |Words(lib, text, stopwords, stemmer)| == n;
    WeighSum(Words(lib, text, stopwords, stemmer));
    BelowOne(n);
  }

  lemma {:induction false} BelowOne(n: nat)
    ensures n as real / (n + 1) as real < 1.0
  {
  }

  lemma {:induction false} WeighSingle(words: seq<string>)
    requires |words| == 1
    ensures Weigh(words) == map[words[0] := 0.5]
  {
    var r := Weigh(words);
    assert Count(words[0], words) == 1;
    assert r.Keys == {words[0]} by {
      forall t
        ensures t in r <==> t == words[0]
      {
        assert t in words <==> t == words[0];
      }
    }
  }

  /** A single surviving word gets weight one half. */
  lemma {:induction false} SingleWordWeighsHalf(lib: TextLib, text: string, stopwords: seq<string>, stemmer: Option<string -> string>)
    requires |Survivors(lib, text, stopwords)| == 1
    ensures var w := Words(lib, text, stopwords, stemmer)[0];
            Tokenize(lib, text, stopwords, stemmer) == map[w := 0.5]
  {
    WeighSingle(Words(lib, text, stopwords, stemmer));
  }

  /* ---------- Inputs that yield nothing ---------- */

  lemma {:induction false} DropAll(ts: seq<string>, stopwords: seq<string>)
    requires forall t :: t in ts ==> t == "" || t in stopwords
    ensures DropStopwords(ts, stopwords) == []
    decreases |ts|
  {
    if ts != [] {
      assert ts[0] in ts;
      DropAll(ts[1..], stopwords);
    }
  }

  /** When every lower-cased token is empty or a stopword, nothing survives and
      the result is the empty map. */
  lemma {:induction false} OnlyStopwordsGiveNothing(lib: TextLib, text: string, stopwords: seq<string>, stemmer: Option<string -> string>)
    requires forall t :: t in Tokens(lib, text) ==> t == "" || t in stopwords
    ensures Tokenize(lib, text, stopwords, stemmer) == map[]
  {
    DropAll(Tokens(lib, text), stopwords);
  }

  /** Separators survive mark deletion as separators and come out of the
      punctuation step as whitespace. */
  lemma {:induction false} SeparatorsBecomeSpace(s: string)
    requires forall i :: 0 <= i < |s| ==> IsSeparator(s[i])
    ensures forall j :: 0 <= j < |ReplacePunctuation(StripMarks(s))| ==> IsSpace(ReplacePunctuation(StripMarks(s))[j])
  {
    var stripped := StripMarks(s);
    forall j | 0 <= j < |stripped|
      ensures IsSeparator(stripped[j])
    {
      assert stripped[j] in s;
    }
  }

  /** Splitting pure whitespace yields only empty pieces. */
  lemma {:induction false} SplitBlank(s: string)
    requires forall j :: 0 <= j < |s| ==> IsSpace(s[j])
    ensures Split(s) == if s == "" then [""] else ["", ""]
    ensures forall p :: p in Split(s) ==> p == ""
  {
    if s != "" {
      var k := RunEnd(s, 0, false);
      assert k == 0;
      var j := RunEnd(s, k, true);
      assert j == |s|;
      assert s[..k] == "";
      assert Split(s[j..]) == [""];
    }
  }

  /** Text made only of whitespace and the replaced symbols (the empty text
      included) yields the empty map. */
  lemma {:induction false} OnlySeparatorsGiveNothing(lib: TextLib, text: string, stopwords: seq<string>, stemmer: Option<string -> string>)
    requires Sane(lib)
    requires forall i :: 0 <= i < |text| ==> IsSeparator(text[i])
    ensures Tokenize(lib, text, stopwords, stemmer) == map[]
  {
    NormalizeKeepsSeparators(lib, text);
    SeparatorsBecomeSpace(Normalize(lib, text));
    var pieces := Split(ReplacePunctuation(StripMarks(Normalize(lib, text))));
    SplitBlank(ReplacePunctuation(StripMarks(Normalize(lib, text))));
    forall t | t in Tokens(lib, text)
      ensures t == ""
    {
      var i :| 0 <= i < |pieces| && Lower(lib, pieces[i]) == t;
      assert pieces[i] in pieces;
    }
    OnlyStopwordsGiveNothing(lib, text, stopwords, stemmer);
  }

  /* ---------- What a term is made of ---------- */

  /** `t` has no whitespace, replaced symbol or combining mark, and is fixed by
      lower-casing. */
  ghost predicate CleanTerm(lib: TextLib, t: string) {
    forall j :: 0 <= j < |t| ==> IsWordChar(t[j]) && lib.lower(t[j]) == t[j]
  }

  /** After mark deletion and punctuation replacement no mark or symbol is left. */
  lemma {:induction false} NoMarksNoSymbols(s: string)
    ensures forall c :: c in ReplacePunctuation(StripMarks(s)) ==> !IsPunctuation(c) && !IsCombiningMark(c)
  {
    var stripped := StripMarks(s);
    var spaced := ReplacePunctuation(stripped);
    forall c | c in spaced
      ensures !IsPunctuation(c) && !IsCombiningMark(c)
    {
      var m :| 0 <= m < |spaced| && spaced[m] == c;
      if !IsPunctuation(stripped[m]) {
        assert c == stripped[m];
      }
    }
  }

  /** Lower-casing a piece of word characters gives a clean term. */
  lemma {:induction false} LowerOfWordIsClean(lib: TextLib, p: string)
    requires Sane(lib)
    requires forall c :: c in p ==> IsWordChar(c)
    ensures CleanTerm(lib, Lower(lib, p))
  {
    var t := Lower(lib, p);
    forall j | 0 <= j < |t|
      ensures IsWordChar(t[j]) && lib.lower(t[j]) == t[j]
    {
      assert p[j] in p;
      assert t[j] == lib.lower(p[j]);
    }
  }

  /** Lower-casing the pieces of a text free of symbols and marks gives
      clean terms. */
  lemma {:induction false} PiecesAreClean(lib: TextLib, s: string)
    requires Sane(lib)
    requires forall c :: c in s ==> !IsPunctuation(c) && !IsCombiningMark(c)
    ensures forall t :: t in LowerAll(lib, Split(s)) ==> CleanTerm(lib, t)
  {
    var pieces := Split(s);
    var lowered := LowerAll(lib, pieces);
    forall t | t in lowered
      ensures CleanTerm(lib, t)
    {
      var i :| 0 <= i < |lowered| && lowered[i] == t;
      assert forall c :: c in pieces[i] ==> c in s && !IsSpace(c);
      LowerOfWordIsClean(lib, pieces[i]);
    }
  }

  /** Every lower-cased token is clean. */
  lemma {:induction false} TokensAreClean(lib: TextLib, text: string)
    requires Sane(lib)
    ensures forall t :: t in Tokens(lib, text) ==> CleanTerm(lib, t)
  {
    NoMarksNoSymbols(Normalize(lib, text));
    PiecesAreClean(lib, ReplacePunctuation(StripMarks(Normalize(lib, text))));
  }

  /** Without a stemmer every term is non-empty, is no stopword, contains no
      whitespace, replaced symbol or combining mark, and is already lower case. */
  lemma {:induction false} UnstemmedTermsAreClean(lib: TextLib, text: string, stopwords: seq<string>, t: string)
    requires Sane(lib)
    requires t in Tokenize(lib, text, stopwords, None)
    ensures |t| > 0 && t !in stopwords
    ensures CleanTerm(lib, t)
  {
    var survivors := Survivors(lib, text, stopwords);
    assert t in survivors;
    var k :| 0 <= k < |survivors| && survivors[k] == t;
    TokensAreClean(lib, text);
  }

  /** Without a stemmer the terms are exactly the surviving words. */
  lemma {:induction false} UnstemmedTermsAreSurvivors(lib: TextLib, text: string, stopwords: seq<string>)
    ensures Tokenize(lib, text, stopwords, None).Keys == set w | w in Survivors(lib, text, stopwords)
  {
  }

  /** The stems of a list are exactly the stems of its elements. */
  lemma {:induction false} StemElements(ws: seq<string>, stem: string -> string)
    ensures forall t :: t in StemAll(ws, stem) <==> exists w :: w in ws && stem(w) == t
  {
    var r := StemAll(ws, stem);
    forall t
      ensures t in r <==> exists w :: w in ws && stem(w) == t
    {
      if t in r {
        var i :| 0 <= i < |r| && r[i] == t;
        assert ws[i] in ws;
      }
      if exists w :: w in ws && stem(w) == t {
        var w :| w in ws && stem(w) == t;
        var i :| 0 <= i < |ws| && ws[i] == w;
        assert r[i] == t;
      }
    }
  }

  /** With a stemmer the terms are exactly the stems of the surviving words:
      the stopword test sees the word before it is stemmed. */
  lemma {:induction false} TermsAreStemsOfSurvivors(lib: TextLib, text: string, stopwords: seq<string>, stem: string -> string)
    ensures Tokenize(lib, text, stopwords, Some(stem)).Keys
            == set w | w in Survivors(lib, text, stopwords) :: stem(w)
  {
    StemElements(Survivors(lib, text, stopwords), stem);
  }

  /* ---------- Stemming merges words ---------- */

  /** How many entries of `ws` stem to `k`. */
  function StemHits(k: string, ws: seq<string>, stem: string -> string): nat {
    if ws == [] then 0
    else (if stem(ws[0]) == k then 1 else 0) + StemHits(k, ws[1..], stem)
  }

  /** A stem occurs in the stemmed list once for every word that stems to it. */
  lemma {:induction false} StemAllCount(ws: seq<string>, stem: string -> string, k: string)
    ensures Count(k, StemAll(ws, stem)) == StemHits(k, ws, stem)
    decreases |ws|
  {
    if ws != [] {
      StemAllCount(ws[1..], stem, k);
      assert StemAll(ws, stem)[1..] == StemAll(ws[1..], stem);
    }
  }

  /** When exactly the distinct words `a` and `b` stem to `k`, the hits of `k`
      are the occurrences of `a` and of `b` together. */
  lemma {:induction false} StemHitsPair(ws: seq<string>, stem: string -> string, a: string, b: string, k: string)
    requires a != b && stem(a) == k && stem(b) == k
    requires forall w :: w in ws && stem(w) == k ==> w == a || w == b
    ensures StemHits(k, ws, stem) == Count(a, ws) + Count(b, ws)
    decreases |ws|
  {
    if ws != [] {
      assert forall w :: w in ws[1..] ==> w in ws;
      StemHitsPair(ws[1..], stem, a, b, k);
      assert ws[0] in ws;
    }
  }

  /** With a stemmer, a term's weight counts every surviving word that stems
      to it: words with a common stem add up. */
  lemma {:induction false} StemmedWeight(lib: TextLib, text: string, stopwords: seq<string>, stem: string -> string, k: string)
    requires k in Tokenize(lib, text, stopwords, Some(stem))
    ensures Tokenize(lib, text, stopwords, Some(stem))[k]
            == Share(StemHits(k, Survivors(lib, text, stopwords), stem), |Survivors(lib, text, stopwords)|)
  {
    var s := Survivors(lib, text, stopwords);
    var words := Words(lib, text, stopwords, Some(stem));
    assert words == StemAll(s, stem);
    StemAllCount(s, stem, k);
    assert |words| == |s|;
  }
}

=== FILE: wrappers.dfy ===
/** An optional value and a success-or-error result, shared by the model. */
module Wrappers {

  /** A value that may be missing: a Redis GET on an absent key, an optional stemmer. */
  datatype Option<+T> = None | Some(value: T) {

    /** The wrapped value, or `default` when there is none. */
    function GetOr(default: T): T {
      match this
      case Some(v) => v
      case None => default
    }
  }

  /** Either a value or the error that prevented computing it. */
  datatype Result<+R, +E> = Success(value: R) | Failure(error: E)
}
